=== FILE: README.md ===
# medtrack appointments core, in Dafny

medtrack is an Express web application for booking doctor appointments, kept in
DynamoDB tables. This project models its core:

- **Records.** An appointment record is a DynamoDB item, modelled as a map from
  attribute names to strings. A missing attribute is JavaScript `undefined`.
  There is a typed view of a full appointment, with a decoder and an encoder
  that round-trip.
- **Writes.** `createAppointment` stamps `id`, `status` and `createdAt` over the
  caller's data. The patient's booking route (`POST /patient/book`) calls it.
- **Partial updates.** `updateAppointment` builds a DynamoDB `SET` update
  expression with name and value placeholders. The model gives that request its
  meaning: it states how the store rewrites the record. Three doctor actions
  call it: add precautions (which also completes the appointment), reschedule,
  and cancel.
- **Reads.** `getAppointments` queries the `doctorId-index` or
  `patientId-index` secondary index.
- **Roles.** The role decides which user table is used and which index is
  queried, through the index name and key condition of the query. Two route
  guards admit a session by its role.
- **Doctor's dashboard.** `GET /doctor` computes eight statistics and one row
  per appointment for the patients table.

Modules:
- `Common`: `Option` and `Result`.
- `Decimal`: the decimal text of the position index in a placeholder.
- `Records`: items, statuses, and the typed appointment.
- `UpdateExpr`: the update-expression builder, and the store's reading of `SET`.
- `Access`: table choice, index choice, the query strings, and the guards.
- `Seqs`: the JavaScript `filter`, `map` and `Set` semantics.
- `Appointments`: the table as a map from id to item, with every operation that
  writes or reads it.
- `IsoDates`: `YYYY-MM-DD` days.
- `Dashboard`: the statistics, the patient rows, and the doctor's page.

Points where the model makes a choice:

- **Missing ids are upserted.** Updating an id with no record creates a record
  that holds only `id` plus the written attributes (`Appointments.Existing`).
  The request carries no condition expression, so DynamoDB's `UpdateItem`
  creates the item.
- **Placeholders can collide.** The builder names the placeholders of the entry
  at position `i` as `#<key><i>` and `:<key><i>`. They are distinct only when no
  key ends in a digit. Key `k1` at position 0 and key `k` at position 10 both
  get `#k10`, and the store then refuses the update
  (`UpdateExpr.PlaceholderCollision`). The application's own update objects
  only use keys without digits. The store also refuses a placeholder with a
  character other than a letter, a digit or `_` (`UpdateExpr.NonWordKeyRefused`),
  and a write of the key attribute `id` (`UpdateExpr.KeyAttributeRefused`). So
  the per-entry guarantees are stated for update objects with distinct keys
  that are non-empty words, are not `id`, and do not end in a digit
  (`UpdateExpr.WellFormed`).
- **`Confirmed` is never reached.** No request sets the status `Confirmed`.
  Bookings start as `Scheduled`, and the three actions set `Completed`,
  `Rescheduled` and `Cancelled` from any status. So the dashboard's "confirmed
  today" count is always zero on a table reachable from one without confirmed
  records (`Dashboard.NoneConfirmedToday`).
- **`weekCount` is all-time.** It is the length of the whole appointment list,
  so it counts every appointment of the doctor, of any date.
- **`patientNew` counts appointments, not patients.** It counts appointments
  dated on or after the first of the current month, future ones included. The
  dates are compared as JavaScript `Date`s, which for `YYYY-MM-DD` strings is
  the order of (year, month, day) (`IsoDates.DayKey`). A date that does not
  parse makes the comparison false.
- **Query order is a parameter.** The order of query results, the clock (ids and
  timestamps), and the result of looking up the doctor are all parameters.

## Model

| member | source | states |
|---|---|---|
| Records.StatusName | index.js:96 | each status has its own name: parsing the name gives back that status |
| Records.DecodeIffRepresents | index.js:93-98 | an item decodes to an appointment exactly when every one of its attributes reads as that appointment's field |
| Records.DecodeEncode | index.js:335-344 | writing an appointment as an item and reading it back gives the same appointment |
| Decimal.ParseShow | index.js:109 | the decimal text of a position index reads back as that index |
| Decimal.ShowInjective | index.js:109 | different position indexes have different decimal texts |
| UpdateExpr.Build | index.js:104-112 | the builder emits one clause per entry, in order, named after the entry's key and position; both placeholders are defined, every placeholder it defines is used by a clause, and when no key ends in a digit they stand for the entry's key and value |
| UpdateExpr.PlaceholdersDistinct | index.js:109 | entries at different positions get different name and value placeholders, provided neither key ends in a digit |
| UpdateExpr.PlaceholderCollision | index.js:108-112 | an update object of word keys with key "k1" at position 0 and key "k" at position 10 gives two clauses on the same placeholder, and the store refuses the whole update |
| UpdateExpr.CollidingEntries | index.js:108 | an update object with distinct word keys, containing "k1" at position 0 and "k" at position 10, exists |
| UpdateExpr.PlaceholderTokens | index.js:109 | a key of letters, digits and `_` gives name and value placeholders the store accepts |
| UpdateExpr.ClauseTokens | index.js:108-112 | every clause built from word keys uses accepted placeholders |
| UpdateExpr.ApplySet | index.js:114-123 | the store executes a SET update exactly when it has a clause, every placeholder is a well-formed token and is defined, every defined placeholder is used by a clause, no two clauses write the same attribute, and no clause writes the empty name or the key attribute `id`; it then writes each clause's value and keeps every attribute no clause writes |
| UpdateExpr.UnusedPlaceholderRefused | index.js:117-119 | a name placeholder that the names map defines but no clause uses makes the store refuse the update |
| UpdateExpr.KeyAttributeRefused | index.js:114-118 | an update object that sets `id`, the key of the record being updated, is refused |
| UpdateExpr.NonWordKeyRefused | index.js:109 | an update object whose key holds a character other than a letter, a digit or `_` is refused for its malformed placeholder |
| UpdateExpr.Assignments | index.js:117 | performing the clauses in order keeps every unwritten attribute, and, when targets are distinct, leaves each clause's value in place |
| UpdateExpr.SharedPlaceholderRefused | index.js:117-119 | two clauses with the same name placeholder make the store refuse the update |
| UpdateExpr.BuildTargets | index.js:108-112 | for a well-formed update object, the clauses are accepted tokens, resolve, write pairwise different attributes, write exactly the update object's keys, and write neither the empty name nor `id` |
| UpdateExpr.BuildApply | index.js:103-121 | the builder's request on a record writes every entry's value under its key and keeps every attribute not in the update object; an empty update object is refused |
| UpdateExpr.Execute | index.js:103-123 | an empty update object is refused; for distinct word keys other than `id` that do not end in a digit, the update succeeds exactly when there is an entry, writes every entry and keeps everything else |
| Access.UserTableFor | index.js:54 | role "doctor" selects the doctors table and every other role the patients table |
| Access.IndexKeyFor | index.js:77 | doctors are matched by doctorId and everybody else by patientId, agreeing with the user-table choice |
| Access.QueryFor | index.js:80-81 | the index the query names is keyed by the attribute, and its key condition compares that same attribute with the user id, for every attribute |
| Access.QueryForRole | index.js:77-81 | a doctor's query names `doctorId-index` with `doctorId = :userId` and everyone else's `patientId-index` with `patientId = :userId`; both name the role's index key in index and condition |
| Access.Guard | index.js:127-135 | a guard passes a request exactly when its session user has the guard's role ("doctor" or "patient"); without a session or with another role the request is redirected to "/" |
| Access.GuardsExclusive | index.js:127-135 | no session passes both guards |
| Access.GuardsAgreeWithDispatch | index.js:127-135 | a session a guard admits uses the user table and index key of that guard's role |
| Seqs.Filter | index.js:250 | a filter keeps only accepted elements, keeps every accepted element, and adds nothing |
| Seqs.FilterSingle | index.js:250 | filtering one element keeps it exactly when the test accepts it |
| Seqs.FilterConcat | index.js:250 | filtering a concatenation concatenates the filters of the parts, so a filter keeps the list's order |
| Seqs.FilterCountsWhere | index.js:250 | the length of a filter is the number of positions at which the predicate holds |
| Seqs.FilterMonotone | index.js:250-251 | a test that accepts more never gives a shorter filter |
| Seqs.FilterMapCount | index.js:260-269 | filtering a mapped list counts the same elements as filtering the original by the composed test |
| Seqs.FilterDistinctCount | index.js:86-87 | filtering a list without repeats counts the distinct values it accepts |
| Seqs.SetOf | index.js:254 | a Set built from a list holds each value of the list once and nothing else |
| Seqs.SizeOfSet | index.js:254 | a Set's size is the number of distinct values of the list, at most its length and at least one when the list is non-empty |
| Appointments.CreateAppointment | index.js:90-101 | a put writes only the record under the new id; that record has the id, status Scheduled and the creation time, and every other attribute comes from the caller's data |
| Appointments.CreateIgnoresCallerStamps | index.js:93-98 | what the caller passes for id, status or createdAt makes no difference to the stored record |
| Appointments.BookingParties | index.js:335-340 | the booking data names the form's doctor id, the found doctor's name and specialization, and the session's patient id and name |
| Appointments.BookingVisit | index.js:341-343 | the booking data carries the form's date, time and reason, and no precautions or update time |
| Appointments.Book | index.js:323-347 | booking is refused, writing nothing, exactly when the doctor is not found; otherwise it writes one record, which decodes to the Scheduled appointment between that doctor and the session's patient at the form's date, time and reason, with no precautions and no update time |
| Appointments.Existing | index.js:114-116 | an update starts from the stored record, or from a record holding only the key when there is none |
| Appointments.UpdateAppointment | index.js:103-124 | a successful update writes only the record under its id; for well-formed update objects it succeeds exactly when there is an entry, writes every entry, and keeps every other attribute |
| Appointments.UpdateFor | index.js:280-305 | each action's update object is not empty and has distinct keys that are words, are not `id` and do not end in a digit |
| Appointments.UpdateKeys | index.js:280-305 | an action's update object touches exactly that action's attributes |
| Appointments.Handle | index.js:280-305 | every doctor action succeeds from any status, writes its attributes, and keeps the rest of the record and every other record; on a record that decodes to an appointment, the result decodes to that appointment with just the action's fields replaced (`Appointments.Step`) |
| Appointments.WritesRefine | index.js:280-305 | a record of an appointment that receives an action's writes and keeps every other attribute is a record of the appointment after the action |
| Appointments.CompleteWithPrecautions | index.js:280-287 | adding precautions stores them, sets status Completed and the update time, and changes nothing else |
| Appointments.RescheduleAppointment | index.js:289-297 | rescheduling stores the new date and time, sets status Rescheduled and the update time, and changes nothing else |
| Appointments.CancelAppointment | index.js:299-305 | cancelling sets status Cancelled and the update time, and changes nothing else |
| Appointments.IndexIds | index.js:76-87 | an id is listed exactly when it is in the index's listing and its record has the key attribute equal to the user id |
| Appointments.IndexIdsInOrder | index.js:76-87 | the listed ids come in the index's order: listing two stretches lists the ids of each in turn, and a single id is listed exactly when its record is under the user id |
| Appointments.IndexIdsCount | index.js:76-87 | when the index lists every record once, the query returns as many records as the user owns |
| Appointments.RunQuery | index.js:78-86 | the store answers a query exactly when its index is keyed by the attribute its condition compares; it then returns, in the index's order, the stored record of each listed id (result i is the record of the i-th listed id), each with that attribute equal to the user id, and every such listed record |
| Appointments.GetAppointments | index.js:76-88 | the role's query is accepted; result i is the stored record of the i-th id the index lists under the user id for the role's key, so the records come in the index's order and every such listed record is among them |
| Appointments.Apply | index.js:280-305 | no booking or doctor action writes the status Confirmed into a table that has none |
| Appointments.WriteKeepsNoneConfirmed | index.js:96 | writing one record with a status other than Confirmed keeps the table free of confirmed records |
| Appointments.RunKeepsNoneConfirmed | index.js:90-101 | any sequence of bookings and doctor actions keeps a table free of confirmed records |
| IsoDates.MonthStart | index.js:255 | the month start is the first seven characters of today, or all of it when shorter, followed by "-01" |
| IsoDates.DayKeyOrder | index.js:255 | comparing two well-formed days by their keys compares them by year, then month, then day, as comparing their `Date`s does |
| IsoDates.MonthStartOfDay | index.js:255 | for a well-formed day, the month start is a well-formed day of the same year and month, day 1, not after it |
| IsoDates.OnOrAfterMonthStart | index.js:255 | a date counts as on or after the month start exactly when it is a well-formed day in today's month or later |
| Dashboard.DatePart | index.js:247 | the date part is the longest prefix without a 'T' |
| Dashboard.DatePartOfTimestamp | index.js:247 | the date part of an ISO timestamp is its first ten characters |
| Dashboard.ComputeStats | index.js:249-258 | each count is the number of appointments meeting its test; weekCount is the list length and patientTotal the number of distinct patient ids; todayConfirmed ≤ todayCount ≤ weekCount; prescriptionTotal, patientNew and patientTotal are at most weekCount; patientTotal ≥ 1 when there is an appointment; todayCount ≤ patientNew when today is a well-formed day |
| Dashboard.TodayWithinMonth | index.js:250-255 | every appointment counted today is also counted from the start of the month |
| Dashboard.PatientIdsOfMap | index.js:254 | the values of the mapped patient-id list are exactly the appointments' patient ids |
| Dashboard.Row | index.js:260-269 | a row shows precautions exactly when the record has non-empty ones, and then the record's; every other column is the record's attribute of that name, absent when the record has none |
| Dashboard.RowOfDecoded | index.js:260-269 | a record that decodes to an appointment is shown as that appointment's row |
| Dashboard.Patients | index.js:260-269 | there is one row per appointment, in the same order: row i is the row of appointment i |
| Dashboard.RowsWithPrecautions | index.js:256-266 | the rows that show precautions number exactly the dashboard's prescription count |
| Dashboard.DoctorDashboard | index.js:245-275 | a non-doctor is redirected to "/"; a doctor sees, in the index's order, the stored record of each id the index lists for them, so every listed appointment of theirs appears and nothing else does, with the statistics and rows of exactly that list; the rows showing precautions number prescriptionTotal; when the index lists every record, weekCount is the number of the doctor's appointments in the table, of any date; on a table without confirmed records todayConfirmed is zero |
| Dashboard.NoneConfirmedListed | index.js:251 | stored records from a table without confirmed records contain none confirmed on any day |
| Dashboard.NoneConfirmedToday | index.js:251 | on any table reached by bookings and actions from one with no confirmed records, todayConfirmed is zero |
| Dashboard.BookedAppearsOnDashboard | index.js:323-347 | once a booking succeeds, its record is on the booked doctor's dashboard, provided the index lists it |

## Left out

- Registration, login, logout, password hashing and the SNS notification: they are I/O and third-party calls outside the appointment core.
- The session store and Express routing are left out. Each route is a function of its inputs; `Dashboard.DoctorDashboard` composes the doctor guard with the page.
- The guards on the POST routes are modelled (`Access.Guard`) but not composed with `Appointments.Book` and `Appointments.Handle`. Those take the already-admitted session's data.
- The rendering of views, and the HTTP redirects after each action.
- `GET /patient`, the patient dashboard: it is outside the doctor-side core.
- The doctor lookup in the booking route is a parameter (`Option<Doctor>`) rather than a table read. That read asks for key `id` in the doctors table, whose accounts are keyed by `email` elsewhere in the code (index.js:57 and index.js:329). The model takes the lookup's result as given.
- The DynamoDB query itself is abstracted to a given order of ids. The model leaves out pagination: a query returns at most one page.
- Ids (`Date.now()`) and timestamps (`toISOString()`) are parameters. The model does not say that ids are unique: two bookings in the same millisecond give the same id, and the later put replaces the earlier record.
- `Object.entries` lists integer-like keys first. The model takes the entries in the order given, and every update object in the application has non-numeric keys.
- Values are strings. A missing form field (`undefined`) in an update or a booking is not modelled.
- UpdateExpr.Execute: the per-entry guarantees are stated only for update objects with distinct word keys other than `id` that do not end in a digit. Other keys can make placeholders collide (see `UpdateExpr.PlaceholderCollision`), or the store refuses them.
- Appointments.UpdateAppointment: the same restriction to well-formed update objects applies.
- IsoDates.OnOrAfterMonthStart: day numbers 1 to 31 are accepted for every month, so an impossible day such as 2024-02-31 is compared by its digits, not by the calendar (JavaScript's `Date` rolls it over into March). Strings that are not `YYYY-MM-DD` count as not on or after, although JavaScript's `Date` parses some of them.
- Appointments.RunQuery: the model assumes the appointments table has the secondary indexes `doctorId-index` and `patientId-index`, partitioned by `doctorId` and `patientId`. It reads an index's key attribute from its name, so a query on any `<attr>-index` is answered; the store would refuse an index the table lacks. The indexes are created outside the application code. The model also assumes both indexes project every attribute, because a query returns whole stored records, and it reads the table's current state, although a query on a secondary index is eventually consistent and can return an older version of a record.
- The table names read from the environment (index.js:35-37) are left out: the model has one appointments table and two user tables, whatever they are called.
- The update expression's text (`UpdateExpr.Text`) is built but carries no contract. Its meaning is given by `UpdateExpr.ApplySet` on the structured expression.

=== FILE: access.dfy ===
/**
 * Who may do what, and which table a role's records live in: the user-table
 * choice made when logging in or registering, the secondary index and key
 * condition the appointment query uses, and the two route guards that admit a
 * session by its role.
 */
module Access {
  import opened Common
  import opened Records

  /** The two user tables. */
  datatype UserTable = Doctors | Patients

  /** The user table a role's accounts are read from and written to: anything but "doctor" is a patient. */
  function UserTableFor(role: string): (t: UserTable)
    ensures t == Doctors <==> role == "doctor"
    ensures t == Patients <==> role != "doctor"
  {
    if role == "doctor" then Doctors else Patients
  }

  /** The appointment attribute a role's appointments are found by. */
  function IndexKeyFor(role: string): (key: string)
    ensures key == "doctorId" <==> UserTableFor(role) == Doctors
    ensures key == "patientId" <==> UserTableFor(role) == Patients
  {
    if role == "doctor" then "doctorId" else "patientId"
  }

  /** The two strings of the appointment query that name the attribute matched. */
  datatype Query = Query(indexName: string, keyCondition: string)

  const IndexSuffix: string := "-index"
  const ConditionSuffix: string := " = :userId"

  /** The query for the attribute `key`: index `<key>-index`, condition `<key> = :userId`. */
  function QueryFor(key: string): (q: Query)
    ensures IndexAttribute(q.indexName) == Some(key)
    ensures ConditionAttribute(q.keyCondition) == Some(key)
  {
    var q := Query(key + IndexSuffix, key + ConditionSuffix);
    assert q.indexName[..|key|] == key && q.keyCondition[..|key|] == key;
    q
  }

  /** `text` without `suffix`, when it ends in it. */
  function StripSuffix(text: string, suffix: string): (r: Option<string>)
    ensures r.Some? <==> |suffix| <= |text| && text[|text| - |suffix|..] == suffix
    ensures r.Some? ==> r.value + suffix == text
  {
    if |suffix| <= |text| && text[|text| - |suffix|..] == suffix then
      var head := text[..|text| - |suffix|];
      assert head + suffix == text;
      Some(head)
    else None
  }

  /** The attribute a secondary index named `<attr>-index` is keyed by. */
  function IndexAttribute(name: string): Option<string> {
    StripSuffix(name, IndexSuffix)
  }

  /** The attribute a key condition `<attr> = :userId` compares with the user id. */
  function ConditionAttribute(cond: string): Option<string> {
    StripSuffix(cond, ConditionSuffix)
  }

  /**
   * The query a role sends is consistent: the index it names is keyed by the
   * attribute its condition compares, and that attribute is the role's index key.
   */
  lemma {:induction false} QueryForRole(role: string)
    ensures IndexAttribute(QueryFor(IndexKeyFor(role)).indexName) == Some(IndexKeyFor(role))
    ensures ConditionAttribute(QueryFor(IndexKeyFor(role)).keyCondition) == Some(IndexKeyFor(role))
    ensures role == "doctor" ==> QueryFor(IndexKeyFor(role)) == Query("doctorId-index", "doctorId = :userId")
    ensures role != "doctor" ==> QueryFor(IndexKeyFor(role)) == Query("patientId-index", "patientId = :userId")
  {
    var key := IndexKeyFor(role);
    if role == "doctor" {
      assert key + IndexSuffix == "doctorId-index";
      assert key + ConditionSuffix == "doctorId = :userId";
    } else {
      assert key + IndexSuffix == "patientId-index";
      assert key + ConditionSuffix == "patientId = :userId";
    }
  }

  /** What a route guard does with a request: pass it on, or redirect it. */
  datatype Gate = Next | Redirect(location: string)

  /**
   * The route guard for `role` (`requireDoctor` with "doctor", `requirePatient`
   * with "patient"): admits a session whose user has that role; every other
   * request, with or without a session, goes to "/".
   */
  function Guard(role: string, user: Option<SessionUser>): (g: Gate)
    ensures g == Next <==> user.Some? && user.value.role == role
    ensures g != Next ==> g == Redirect("/")
  {
    if user.Some? && user.value.role == role then Next else Redirect("/")
  }

  /** No session passes both guards. */
  lemma {:induction false} GuardsExclusive(user: Option<SessionUser>)
    ensures !(Guard("doctor", user) == Next && Guard("patient", user) == Next)
  {
  }

  /**
   * A session admitted by a guard reads the table and index of its own role:
   * doctors their `doctorId` appointments, patients their `patientId` ones.
   */
  lemma {:induction false} GuardsAgreeWithDispatch(user: Option<SessionUser>)
    ensures Guard("doctor", user) == Next ==>
      UserTableFor(user.value.role) == Doctors && IndexKeyFor(user.value.role) == "doctorId"
    ensures Guard("patient", user) == Next ==>
      UserTableFor(user.value.role) == Patients && IndexKeyFor(user.value.role) == "patientId"
  {
  }
}

=== FILE: appointments.dfy ===
/**
 * The appointments table and everything that writes or reads it: creating a
 * record (`createAppointment`) and the booking route that calls it, the
 * partial update (`updateAppointment`) and the three doctor actions built on
 * it, and the index query (`getAppointments`).
 */
module Appointments {
  import opened Common
  import opened Records
  import opened UpdateExpr
  import Access
  import Seqs

  /** The appointments table: record id to record. */
  type Store = map<string, Item>

  /** `after` is `before` with the record under `id` written (added or replaced) and every other record as it was. */
  predicate WritesOnly(before: Store, after: Store, id: string) {
    id in after && after.Keys == before.Keys + {id} &&
    forall k :: k in before && k != id ==> after[k] == before[k]
  }

  /** Every attribute outside `touched` reads the same in both records. */
  ghost predicate KeepsOutside(before: Item, after: Item, touched: set<string>) {
    forall attr :: attr !in touched ==> Lookup(after, attr) == Lookup(before, attr)
  }

  /** The attributes `createAppointment` sets itself, overriding the caller's data. */
  const Stamped: set<string> := {"id", "status", "createdAt"}

  /**
   * Puts a new record under `id`: the caller's attributes, with `id`, status
   * "Scheduled" and the creation time taking precedence over any the caller
   * passed. A put replaces a record that already has that id.
   */
  function CreateAppointment(store: Store, data: Item, id: string, createdAt: string): (r: Store)
    ensures WritesOnly(store, r, id)
    ensures Lookup(r[id], "id") == Some(id)
    ensures Lookup(r[id], "status") == Some(StatusName(Scheduled))
    ensures Lookup(r[id], "createdAt") == Some(createdAt)
    ensures KeepsOutside(data, r[id], Stamped)
  {
    store[id := data + map["id" := id, "status" := StatusName(Scheduled), "createdAt" := createdAt]]
  }

  /** Whatever the caller says about id, status or creation time is ignored. */
  lemma {:induction false} CreateIgnoresCallerStamps(store: Store, d1: Item, d2: Item, id: string, createdAt: string)
    requires KeepsOutside(d1, d2, Stamped)
    ensures CreateAppointment(store, d1, id, createdAt) == CreateAppointment(store, d2, id, createdAt)
  {
    var r1 := CreateAppointment(store, d1, id, createdAt)[id];
    var r2 := CreateAppointment(store, d2, id, createdAt)[id];
    LookupExtensional(r1, r2);
  }

  // ----- Booking -----

  /** The two doctor attributes the booking copies. */
  datatype Doctor = Doctor(name: string, specialization: string)

  /** The fields of the booking form. */
  datatype BookingForm = BookingForm(doctorId: string, date: string, time: string, reason: string)

  datatype BookError = InvalidDoctor

  /** The attributes the booking route passes to `createAppointment`. */
  function BookingData(form: BookingForm, doctor: Doctor, patient: SessionUser): Item {
    map["doctorId" := form.doctorId, "doctorName" := doctor.name, "specialty" := doctor.specialization,
        "patientId" := patient.id, "patientName" := patient.name,
        "date" := form.date, "time" := form.time, "reason" := form.reason]
  }

  /**
   * A patient books an appointment. `doctor` is the result of looking the
   * doctor up; without one the booking is refused and nothing is written.
   */
  function Book(store: Store, form: BookingForm, doctor: Option<Doctor>, patient: SessionUser, id: string, createdAt: string): (r: Result<Store, BookError>)
    ensures doctor.None? <==> r == Err(InvalidDoctor)
    ensures r.Ok? ==> WritesOnly(store, r.value, id)
    ensures r.Ok? ==> Lookup(r.value[id], "status") == Some(StatusName(Scheduled))
    ensures r.Ok? ==> Decode(r.value[id]) == Some(Appointment(
      id, form.doctorId, doctor.value.name, doctor.value.specialization, patient.id, patient.name,
      form.date, form.time, form.reason, Scheduled, None, createdAt, None))
  {
    match doctor
    case None => Err(InvalidDoctor)
    case Some(d) =>
      var data := BookingData(form, d, patient);
      var r := CreateAppointment(store, data, id, createdAt);
      var a := Appointment(id, form.doctorId, d.name, d.specialization, patient.id, patient.name,
        form.date, form.time, form.reason, Scheduled, None, createdAt, None);
      BookingParties(form, d, patient);
      BookingVisit(form, d, patient);
      StampsKeepData(data, r[id]);
      RepresentsDecodes(r[id], a);
      Ok(r)
  }

  /** Who the booking data names. */
  lemma {:induction false} BookingParties(form: BookingForm, d: Doctor, patient: SessionUser)
    ensures Lookup(BookingData(form, d, patient), "doctorId") == Some(form.doctorId)
    ensures Lookup(BookingData(form, d, patient), "doctorName") == Some(d.name)
    ensures Lookup(BookingData(form, d, patient), "specialty") == Some(d.specialization)
    ensures Lookup(BookingData(form, d, patient), "patientId") == Some(patient.id)
    ensures Lookup(BookingData(form, d, patient), "patientName") == Some(patient.name)
  {
  }

  /** When and why the booking is, and that it carries no precautions or update time. */
  lemma {:induction false} BookingVisit(form: BookingForm, d: Doctor, patient: SessionUser)
    ensures Lookup(BookingData(form, d, patient), "date") == Some(form.date)
    ensures Lookup(BookingData(form, d, patient), "time") == Some(form.time)
    ensures Lookup(BookingData(form, d, patient), "reason") == Some(form.reason)
    ensures Lookup(BookingData(form, d, patient), "precautions") == None
    ensures Lookup(BookingData(form, d, patient), "updatedAt") == None
  {
  }

  /** The attributes a new record takes from the caller's data. */
  lemma {:induction false} StampsKeepData(data: Item, item: Item)
    requires KeepsOutside(data, item, Stamped)
    ensures Lookup(item, "doctorId") == Lookup(data, "doctorId") && Lookup(item, "doctorName") == Lookup(data, "doctorName")
    ensures Lookup(item, "specialty") == Lookup(data, "specialty") && Lookup(item, "patientId") == Lookup(data, "patientId")
    ensures Lookup(item, "patientName") == Lookup(data, "patientName") && Lookup(item, "date") == Lookup(data, "date")
    ensures Lookup(item, "time") == Lookup(data, "time") && Lookup(item, "reason") == Lookup(data, "reason")
    ensures Lookup(item, "precautions") == Lookup(data, "precautions") && Lookup(item, "updatedAt") == Lookup(data, "updatedAt")
  {
  }

  // ----- Partial update -----

  /**
   * The record an update starts from. An update of an id with no record
   * creates one holding just the key attribute, as the document store does.
   */
  function Existing(store: Store, id: string): (item: Item)
    ensures id in store ==> item == store[id]
    ensures id !in store ==> item.Keys == {"id"} && item["id"] == id
  {
    if id in store then store[id] else map["id" := id]
  }

  /**
   * `updateAppointment(id, entries)`: builds the SET request from the entries
   * and executes it on the record under `id`. For an update object with
   * distinct keys that do not end in a digit, it succeeds exactly when there
   * is at least one entry, writes every entry and leaves every other attribute
   * and every other record alone.
   */
  function UpdateAppointment(store: Store, id: string, entries: seq<Entry>): (r: Result<Store, UpdateError>)
    ensures r.Ok? ==> WritesOnly(store, r.value, id)
    ensures WellFormed(entries) ==> (r.Ok? <==> |entries| > 0)
    ensures WellFormed(entries) && r.Ok? ==>
      forall i :: 0 <= i < |entries| ==> Lookup(r.value[id], entries[i].key) == Some(entries[i].value)
    ensures WellFormed(entries) && r.Ok? ==>
      forall attr :: !HasKey(entries, attr) ==> Lookup(r.value[id], attr) == Lookup(Existing(store, id), attr)
  {
    var res := Execute(Existing(store, id), entries);
    if res.Err? then Err(res.error)
    else
      var after := store[id := res.value];
      PutWritesOnly(store, id, res.value);
      Ok(after)
  }

  /** Putting a record under `id` writes that record and nothing else. */
  lemma {:induction false} PutWritesOnly(store: Store, id: string, item: Item)
    ensures WritesOnly(store, store[id := item], id) && store[id := item][id] == item
  {
  }

  // ----- The doctor's actions -----

  /** What a doctor does to an appointment, with the form values and the time of the action. */
  datatype Action =
    | AddPrecautions(precautions: string, at: string)
    | Reschedule(date: string, time: string, at: string)
    | Cancel(at: string)

  /** The update object each action passes to `updateAppointment`, in its property order. */
  function UpdateFor(act: Action): (entries: seq<Entry>)
    ensures WellFormed(entries) && |entries| > 0
  {
    ActionKeysAreWords();
    match act
    case AddPrecautions(p, at) =>
      [Entry("precautions", p), Entry("status", StatusName(Completed)), Entry("updatedAt", at)]
    case Reschedule(d, t, at) =>
      [Entry("date", d), Entry("time", t), Entry("status", StatusName(Rescheduled)), Entry("updatedAt", at)]
    case Cancel(at) =>
      [Entry("status", StatusName(Cancelled)), Entry("updatedAt", at)]
  }

  /** The attributes the actions write are words the store accepts in placeholders. */
  lemma {:induction false} ActionKeysAreWords()
    ensures WordKey("precautions") && WordKey("status") && WordKey("updatedAt")
    ensures WordKey("date") && WordKey("time")
  {
  }

  const PrecautionsAttrs: set<string> := {"precautions", "status", "updatedAt"}
  const RescheduleAttrs: set<string> := {"date", "time", "status", "updatedAt"}
  const CancelAttrs: set<string> := {"status", "updatedAt"}

  /** The attributes an action writes. */
  function Touched(act: Action): set<string> {
    match act
    case AddPrecautions(_, _) => PrecautionsAttrs
    case Reschedule(_, _, _) => RescheduleAttrs
    case Cancel(_) => CancelAttrs
  }

  /** The update object of an action has exactly the touched attributes as keys. */
  lemma {:induction false} UpdateKeys(act: Action)
    ensures forall attr :: HasKey(UpdateFor(act), attr) <==> attr in Touched(act)
  {
    var es := UpdateFor(act);
    forall attr ensures HasKey(es, attr) <==> attr in Touched(act) {
      if attr in Touched(act) {
        match act
        case AddPrecautions(_, _) =>
          assert es[0].key == "precautions" && es[1].key == "status" && es[2].key == "updatedAt";
        case Reschedule(_, _, _) =>
          assert es[0].key == "date" && es[1].key == "time" && es[2].key == "status" && es[3].key == "updatedAt";
        case Cancel(_) =>
          assert es[0].key == "status" && es[1].key == "updatedAt";
      }
    }
  }

  /** The status an action leaves the appointment in. */
  function TargetStatus(act: Action): Status {
    match act
    case AddPrecautions(_, _) => Completed
    case Reschedule(_, _, _) => Rescheduled
    case Cancel(_) => Cancelled
  }

  /**
   * Performs an action on the record under `id`. No current status is checked:
   * the action succeeds from any state, writes its attributes, and leaves the
   * rest of the record and every other record as they were.
   */
  function Handle(store: Store, id: string, act: Action): (r: Result<Store, UpdateError>)
    ensures r.Ok? && WritesOnly(store, r.value, id)
    ensures HoldsActionWrites(r.value[id], act)
    ensures KeepsOutside(Existing(store, id), r.value[id], Touched(act))
    ensures id in store && Decode(store[id]).Some? ==>
      Decode(r.value[id]) == Some(Step(Decode(store[id]).value, act))
  {
    var es := UpdateFor(act);
    UpdateKeys(act);
    var r := UpdateAppointment(store, id, es);
    ActionWrites(r.value[id], act);
    WritesRefine(Existing(store, id), r.value[id], act);
    r
  }

  /** The values an action leaves in the attributes it touches. */
  ghost predicate HoldsActionWrites(item: Item, act: Action) {
    Lookup(item, "status") == Some(StatusName(TargetStatus(act))) &&
    Lookup(item, "updatedAt") == Some(act.at) &&
    (act.AddPrecautions? ==> Lookup(item, "precautions") == Some(act.precautions)) &&
    (act.Reschedule? ==> Lookup(item, "date") == Some(act.date) && Lookup(item, "time") == Some(act.time))
  }

  /** A record holding every entry of an action's update object holds what the action writes. */
  lemma {:induction false} ActionWrites(item: Item, act: Action)
    requires forall i :: 0 <= i < |UpdateFor(act)| ==> Lookup(item, UpdateFor(act)[i].key) == Some(UpdateFor(act)[i].value)
    ensures HoldsActionWrites(item, act)
  {
    var es := UpdateFor(act);
    match act
    case AddPrecautions(_, _) =>
      assert Lookup(item, es[0].key) == Some(es[0].value);
      assert Lookup(item, es[1].key) == Some(es[1].value);
      assert Lookup(item, es[2].key) == Some(es[2].value);
    case Reschedule(_, _, _) =>
      assert Lookup(item, es[0].key) == Some(es[0].value);
      assert Lookup(item, es[1].key) == Some(es[1].value);
      assert Lookup(item, es[2].key) == Some(es[2].value);
      assert Lookup(item, es[3].key) == Some(es[3].value);
    case Cancel(_) =>
      assert Lookup(item, es[0].key) == Some(es[0].value);
      assert Lookup(item, es[1].key) == Some(es[1].value);
  }

  /** The precautions action: records the precautions and marks the appointment "Completed". */
  function CompleteWithPrecautions(store: Store, id: string, precautions: string, at: string): (r: Result<Store, UpdateError>)
    ensures r.Ok? && WritesOnly(store, r.value, id)
    ensures Lookup(r.value[id], "precautions") == Some(precautions)
    ensures Lookup(r.value[id], "status") == Some(StatusName(Completed))
    ensures Lookup(r.value[id], "updatedAt") == Some(at)
    ensures KeepsOutside(Existing(store, id), r.value[id], PrecautionsAttrs)
  {
    Handle(store, id, AddPrecautions(precautions, at))
  }

  /** The reschedule action: moves the appointment and marks it "Rescheduled". */
  function RescheduleAppointment(store: Store, id: string, date: string, time: string, at: string): (r: Result<Store, UpdateError>)
    ensures r.Ok? && WritesOnly(store, r.value, id)
    ensures Lookup(r.value[id], "date") == Some(date) && Lookup(r.value[id], "time") == Some(time)
    ensures Lookup(r.value[id], "status") == Some(StatusName(Rescheduled))
    ensures Lookup(r.value[id], "updatedAt") == Some(at)
    ensures KeepsOutside(Existing(store, id), r.value[id], RescheduleAttrs)
  {
    Handle(store, id, Reschedule(date, time, at))
  }

  /** The cancel action: marks the appointment "Cancelled" and changes nothing else but the update time. */
  function CancelAppointment(store: Store, id: string, at: string): (r: Result<Store, UpdateError>)
    ensures r.Ok? && WritesOnly(store, r.value, id)
    ensures Lookup(r.value[id], "status") == Some(StatusName(Cancelled))
    ensures Lookup(r.value[id], "updatedAt") == Some(at)
    ensures KeepsOutside(Existing(store, id), r.value[id], CancelAttrs)
  {
    Handle(store, id, Cancel(at))
  }

  /** The action on the typed appointment: the reference the record-level update is checked against. */
  function Step(a: Appointment, act: Action): Appointment {
    match act
    case AddPrecautions(p, at) => a.(precautions := Some(p), status := Completed, updatedAt := Some(at))
    case Reschedule(d, t, at) => a.(date := d, time := t, status := Rescheduled, updatedAt := Some(at))
    case Cancel(at) => a.(status := Cancelled, updatedAt := Some(at))
  }

  /**
   * A record of an appointment that receives what an action writes, and keeps
   * every other attribute, is a record of the appointment after `Step`.
   */
  lemma {:induction false} WritesRefine(before: Item, after: Item, act: Action)
    requires HoldsActionWrites(after, act) && KeepsOutside(before, after, Touched(act))
    ensures Decode(before).Some? ==> Decode(after) == Some(Step(Decode(before).value, act))
  {
    if Decode(before).Some? {
      var a := Decode(before).value;
      DecodeIffRepresents(before, a);
      assert Represents(after, Step(a, act));
      RepresentsDecodes(after, Step(a, act));
    }
  }

  // ----- Reading by index -----

  /** A record is in the index for `key` under `userId`. */
  predicate Matches(item: Item, key: string, userId: string) {
    Lookup(item, key) == Some(userId)
  }

  /** The test the index applies to an id. */
  function Listed(store: Store, key: string, userId: string): string -> bool {
    id => id in store && Matches(store[id], key, userId)
  }

  /** The ids of the records the index lists under `userId`, in the index's order `order`. */
  function IndexIds(store: Store, key: string, userId: string, order: seq<string>): (ids: seq<string>)
    ensures forall id :: id in ids <==> id in order && id in store && Matches(store[id], key, userId)
  {
    Seqs.Filter(order, Listed(store, key, userId))
  }

  /**
   * The index keeps the order of `order`: listing two stretches one after the
   * other lists the ids of each in turn, and one id is listed exactly when it
   * is under `userId`.
   */
  lemma {:induction false} IndexIdsInOrder(store: Store, key: string, userId: string, a: seq<string>, b: seq<string>)
    ensures IndexIds(store, key, userId, a + b) == IndexIds(store, key, userId, a) + IndexIds(store, key, userId, b)
    ensures forall id ::
      IndexIds(store, key, userId, [id]) == if id in store && Matches(store[id], key, userId) then [id] else []
  {
    var p := Listed(store, key, userId);
    Seqs.FilterConcat(a, b, p);
    forall id ensures Seqs.Filter([id], p) == if p(id) then [id] else [] {
      Seqs.FilterSingle(id, p);
    }
  }

  /** The ids of the records under `userId`. */
  function Owned(store: Store, key: string, userId: string): set<string> {
    set id | id in store && Matches(store[id], key, userId)
  }

  /** `order` lists every record of the store exactly once. */
  ghost predicate Enumerates(order: seq<string>, store: Store) {
    Seqs.Distinct(order) && forall id :: id in order <==> id in store
  }

  /** Listing the whole table once, the index returns each record under `userId` once. */
  lemma {:induction false} IndexIdsCount(store: Store, key: string, userId: string, order: seq<string>)
    ensures Enumerates(order, store) ==> |IndexIds(store, key, userId, order)| == |Owned(store, key, userId)|
  {
    if !Enumerates(order, store) {
      return;
    }
    var p := Listed(store, key, userId);
    Seqs.FilterDistinctCount(order, p);
    assert IndexIds(store, key, userId, order) == Seqs.Filter(order, p);
    assert Seqs.Accepted(order, p) == Owned(store, key, userId);
  }

  datatype QueryError =
    | UnknownIndex     // the index name does not name an attribute's index
    | KeySchemaMissed  // the key condition compares another attribute than the index's key

  /**
   * The store's reading of a query on a secondary index: the records whose
   * index attribute equals `userId`, in the index's order `order`. A query
   * whose condition does not compare the index's key attribute is refused.
   */
  function RunQuery(store: Store, q: Access.Query, userId: string, order: seq<string>): (r: Result<seq<Item>, QueryError>)
    ensures r.Ok? <==> (
      Access.IndexAttribute(q.indexName).Some? &&
      Access.ConditionAttribute(q.keyCondition) == Access.IndexAttribute(q.indexName))
    ensures r.Ok? ==> |r.value| == |IndexIds(store, Access.IndexAttribute(q.indexName).value, userId, order)|
    ensures r.Ok? ==> forall i :: 0 <= i < |r.value| ==>
      var ids := IndexIds(store, Access.IndexAttribute(q.indexName).value, userId, order);
      ids[i] in store && r.value[i] == store[ids[i]]
    ensures r.Ok? ==> forall i :: 0 <= i < |r.value| ==>
      r.value[i] in store.Values && Matches(r.value[i], Access.IndexAttribute(q.indexName).value, userId)
    ensures r.Ok? ==> forall id :: id in order && id in store && Matches(store[id], Access.IndexAttribute(q.indexName).value, userId) ==>
      store[id] in r.value
  {
    match Access.IndexAttribute(q.indexName)
    case None => Err(UnknownIndex)
    case Some(key) =>
      if Access.ConditionAttribute(q.keyCondition) != Some(key) then Err(KeySchemaMissed)
      else
        var ids := IndexIds(store, key, userId, order);
        var r := seq(|ids|, i requires 0 <= i < |ids| => store[ids[i]]);
        assert forall id :: id in ids ==> store[id] in r by {
          forall id | id in ids ensures store[id] in r {
            var j :| 0 <= j < |ids| && ids[j] == id;
            assert r[j] == store[id];
          }
        }
        Ok(r)
  }

  /**
   * `getAppointments(userId, role)`: sends the role's query (on `doctorId` for
   * a doctor, `patientId` otherwise), which the store accepts, and returns the
   * records it lists; an empty result is an empty list.
   */
  function GetAppointments(store: Store, userId: string, role: string, order: seq<string>): (r: seq<Item>)
    ensures |r| == |IndexIds(store, Access.IndexKeyFor(role), userId, order)|
    ensures forall i :: 0 <= i < |r| ==>
      var ids := IndexIds(store, Access.IndexKeyFor(role), userId, order);
      ids[i] in store && r[i] == store[ids[i]]
    ensures forall i :: 0 <= i < |r| ==> Matches(r[i], Access.IndexKeyFor(role), userId)
    ensures forall id :: id in order && id in store && Matches(store[id], Access.IndexKeyFor(role), userId) ==> store[id] in r
    ensures forall i :: 0 <= i < |r| ==> r[i] in store.Values
  {
    RunQuery(store, Access.QueryFor(Access.IndexKeyFor(role)), userId, order).value
  }

  // ----- What the application can reach -----

  /** Nothing in the table is in status "Confirmed". */
  ghost predicate NoneConfirmed(store: Store) {
    forall id :: id in store ==> Lookup(store[id], "status") != Some(StatusName(Confirmed))
  }

  /** One request that writes the table: a booking, or a doctor's action on an appointment id. */
  datatype Event =
    | Booked(form: BookingForm, doctor: Option<Doctor>, patient: SessionUser, id: string, at: string)
    | Acted(id: string, act: Action)

  /** The table after one request; a refused booking leaves it as it was. */
  function Apply(store: Store, ev: Event): (r: Store)
    ensures NoneConfirmed(store) ==> NoneConfirmed(r)
  {
    match ev
    case Booked(form, doctor, patient, id, at) =>
      var b := Book(store, form, doctor, patient, id, at);
      if b.Err? then store
      else
        WriteKeepsNoneConfirmed(store, b.value, id, Scheduled);
        b.value
    case Acted(id, act) =>
      var after := Handle(store, id, act).value;
      WriteKeepsNoneConfirmed(store, after, id, TargetStatus(act));
      after
  }

  /** Writing one record in a status other than "Confirmed" keeps the table free of confirmed records. */
  lemma {:induction false} WriteKeepsNoneConfirmed(before: Store, after: Store, id: string, s: Status)
    requires WritesOnly(before, after, id)
    requires Lookup(after[id], "status") == Some(StatusName(s)) && s != Confirmed
    ensures NoneConfirmed(before) ==> NoneConfirmed(after)
  {
    assert ParseStatus(StatusName(s)) == Some(s);
  }

  /** The table after a sequence of requests, applied in order. */
  function Run(store: Store, events: seq<Event>): Store
    decreases |events|
  {
    if events == [] then store else Run(Apply(store, events[0]), events[1..])
  }

  /**
   * No request sets the status "Confirmed": bookings start as "Scheduled" and
   * the doctor's actions set "Completed", "Rescheduled" or "Cancelled". So a
   * table that starts without confirmed appointments never has one.
   */
  lemma {:induction false} RunKeepsNoneConfirmed(store: Store, events: seq<Event>)
    requires NoneConfirmed(store)
    ensures NoneConfirmed(Run(store, events))
    decreases |events|
  {
    if events != [] {
      RunKeepsNoneConfirmed(Apply(store, events[0]), events[1..]);
    }
  }
}

=== FILE: common.dfy ===
/** Failure-carrying wrappers shared by every module of the model. */
module Common {

  /** A value that may be absent; `None` plays the part of JavaScript's `undefined`/`null`. */
  datatype Option<+T> = None | Some(value: T)

  /** The outcome of an operation that can be refused. */
  datatype Result<+T, +E> = Ok(value: T) | Err(error: E)
}

=== FILE: dashboard.dfy ===
/**
 * The doctor's dashboard: the doctor's appointments, a row of statistics
 * computed from them, and a per-appointment table of patients. Every number is
 * the length of a filter of the appointment list, or the size of a Set of
 * patient ids; the lemmas here relate them to each other and to the table.
 */
module Dashboard {
  import opened Common
  import opened Records
  import Seqs
  import IsoDates
  import Access
  import Appointments

  /** `today`: the date part of an ISO timestamp, `now.split('T')[0]`. */
  function DatePart(now: string): (d: string)
    ensures 'T' !in d
    ensures |d| <= |now| && now[..|d|] == d
    ensures |d| < |now| ==> now[|d|] == 'T'
    decreases |now|
  {
    if now == [] || now[0] == 'T' then ""
    else [now[0]] + DatePart(now[1..])
  }

  /** For a timestamp `YYYY-MM-DDThh:mm:ss.sssZ` the date part is its first ten characters. */
  lemma {:induction false} DatePartOfTimestamp(now: string)
    requires |now| > 10 && now[10] == 'T' && 'T' !in now[..10]
    ensures DatePart(now) == now[..10]
  {
  }

  /** An appointment on `today`: `a.date === today`. */
  function OnDay(today: string): Item -> bool {
    a => Lookup(a, "date") == Some(today)
  }

  /** `a.date === today && a.status === 'Confirmed'`. */
  function ConfirmedOn(today: string): Item -> bool {
    a => Lookup(a, "date") == Some(today) && Lookup(a, "status") == Some(StatusName(Confirmed))
  }

  /** `new Date(a.date) >= new Date(today.substring(0,7)+'-01')`. */
  function FromMonthOf(today: string): Item -> bool {
    a => IsoDates.OnOrAfter(Lookup(a, "date"), IsoDates.MonthStart(today))
  }

  /** `a.precautions`, read as a condition. */
  function HasPrecautions(): Item -> bool {
    a => Truthy(Lookup(a, "precautions"))
  }

  /** `a.patientId`, undefined when the record has none. */
  function PatientIdOf(): Item -> Option<string> {
    a => Lookup(a, "patientId")
  }

  /** The patient ids the appointments mention, an absent one counted as a value of its own. */
  function PatientIds(xs: seq<Item>): set<Option<string>> {
    set a | a in xs :: Lookup(a, "patientId")
  }

  datatype Stats = Stats(
    todayCount: nat,
    todayConfirmed: nat,
    weekCount: nat,
    weekDiff: nat,
    patientTotal: nat,
    patientNew: nat,
    prescriptionTotal: nat,
    prescriptionWeekly: nat)

  /** The statistics the dashboard shows for the appointment list `xs` on the day `today`. */
  function ComputeStats(xs: seq<Item>, today: string): (r: Stats)
    ensures r.todayCount == |Seqs.Where(xs, OnDay(today))|
    ensures r.todayConfirmed == |Seqs.Where(xs, ConfirmedOn(today))|
    ensures r.weekCount == |xs|
    ensures r.weekDiff == 0 && r.prescriptionWeekly == 0
    ensures r.patientTotal == |PatientIds(xs)|
    ensures r.patientNew == |Seqs.Where(xs, FromMonthOf(today))|
    ensures r.prescriptionTotal == |Seqs.Where(xs, HasPrecautions())|
    ensures r.todayConfirmed <= r.todayCount <= r.weekCount
    ensures r.patientTotal <= r.weekCount && r.patientNew <= r.weekCount && r.prescriptionTotal <= r.weekCount
    ensures |xs| > 0 ==> r.patientTotal >= 1
    ensures IsoDates.IsIsoDate(today) ==> r.todayCount <= r.patientNew
  {
    var ids := Seqs.Map(xs, PatientIdOf());
    var r := Stats(
      Seqs.Count(xs, OnDay(today)),
      Seqs.Count(xs, ConfirmedOn(today)),
      |xs|,
      0,
      Seqs.SizeOfSet(ids),
      Seqs.Count(xs, FromMonthOf(today)),
      Seqs.Count(xs, HasPrecautions()),
      0);
    Seqs.FilterMonotone(xs, ConfirmedOn(today), OnDay(today));
    PatientIdsOfMap(xs);
    if IsoDates.IsIsoDate(today) then
      TodayWithinMonth(xs, today);
      r
    else r
  }

  /** The values of the mapped list are the patient ids of the appointments. */
  lemma {:induction false} PatientIdsOfMap(xs: seq<Item>)
    ensures Seqs.Elements(Seqs.Map(xs, PatientIdOf())) == PatientIds(xs)
  {
    var ids := Seqs.Map(xs, PatientIdOf());
    forall v | v in PatientIds(xs) ensures v in ids {
      var a :| a in xs && Lookup(a, "patientId") == v;
      var i :| 0 <= i < |xs| && xs[i] == a;
      assert ids[i] == v;
    }
  }

  /** Every appointment dated today is dated on or after the first of today's month. */
  lemma {:induction false} TodayWithinMonth(xs: seq<Item>, today: string)
    requires IsoDates.IsIsoDate(today)
    ensures |Seqs.Filter(xs, OnDay(today))| <= |Seqs.Filter(xs, FromMonthOf(today))|
  {
    IsoDates.MonthStartOfDay(today);
    assert forall a :: OnDay(today)(a) ==> FromMonthOf(today)(a);
    Seqs.FilterMonotone(xs, OnDay(today), FromMonthOf(today));
  }

  /** One row of the patients table. */
  datatype PatientRow = PatientRow(
    patientName: Option<string>,
    patientId: Option<string>,
    date: Option<string>,
    time: Option<string>,
    status: Option<string>,
    precautions: Option<string>,
    reason: Option<string>,
    id: Option<string>)

  /** The row for one appointment; `a.precautions || null` turns an empty text into no precautions. */
  function Row(a: Item): (row: PatientRow)
    ensures row.precautions.Some? <==> Truthy(Lookup(a, "precautions"))
    ensures row.precautions.Some? ==> row.precautions == Lookup(a, "precautions")
    ensures row.patientId == Lookup(a, "patientId") && row.id == Lookup(a, "id")
    ensures row.patientName == Lookup(a, "patientName") && row.reason == Lookup(a, "reason")
    ensures row.date == Lookup(a, "date") && row.time == Lookup(a, "time") && row.status == Lookup(a, "status")
  {
    PatientRow(
      Lookup(a, "patientName"),
      Lookup(a, "patientId"),
      Lookup(a, "date"),
      Lookup(a, "time"),
      Lookup(a, "status"),
      if Truthy(Lookup(a, "precautions")) then Lookup(a, "precautions") else None,
      Lookup(a, "reason"),
      Lookup(a, "id"))
  }

  /** The row a well-formed appointment record yields, read off the typed appointment. */
  function RowOf(a: Appointment): PatientRow {
    PatientRow(
      Some(a.patientName), Some(a.patientId), Some(a.date), Some(a.time), Some(StatusName(a.status)),
      if a.precautions.Some? && a.precautions.value != "" then a.precautions else None,
      Some(a.reason), Some(a.id))
  }

  /** A record that decodes to an appointment is shown as that appointment's row. */
  lemma {:induction false} RowOfDecoded(item: Item, a: Appointment)
    requires Decode(item) == Some(a)
    ensures Row(item) == RowOf(a)
  {
    DecodeIffRepresents(item, a);
  }

  /** `doctorAppointments.map(...)`: one row per appointment, in the same order. */
  function Patients(xs: seq<Item>): (rows: seq<PatientRow>)
    ensures |rows| == |xs|
    ensures forall i :: 0 <= i < |xs| ==> rows[i] == Row(xs[i]) && rows[i].id == Lookup(xs[i], "id")
  {
    Seqs.Map(xs, Row)
  }

  function ShowsPrecautions(): PatientRow -> bool {
    (row: PatientRow) => row.precautions.Some?
  }

  /** The rows that show precautions are as many as the dashboard's prescription count. */
  lemma {:induction false} RowsWithPrecautions(xs: seq<Item>, today: string)
    ensures |Seqs.Filter(Patients(xs), ShowsPrecautions())| == ComputeStats(xs, today).prescriptionTotal
  {
    Seqs.FilterMapCount(xs, Row, HasPrecautions(), ShowsPrecautions());
    Seqs.FilterCountsWhere(xs, HasPrecautions());
  }

  /** What `GET /doctor` answers. */
  datatype Page =
    | Redirected(location: string)
    | DoctorPage(doctor: SessionUser, appointments: seq<Item>, stats: Stats, patients: seq<PatientRow>)

  /**
   * `GET /doctor`: for a doctor's session, the doctor's appointments (read
   * through the doctorId index, listed in `order`) with their statistics and
   * patient rows for the day of `now`; every other request is sent to "/".
   * When the index lists the whole table, the "week" count is the number of
   * the doctor's appointments of any date; on a table without confirmed
   * records the "confirmed today" count is zero.
   */
  function DoctorDashboard(store: Appointments.Store, user: Option<SessionUser>, order: seq<string>, now: string): (p: Page)
    ensures p.Redirected? <==> Access.Guard("doctor", user) != Access.Next
    ensures p.Redirected? ==> p.location == "/"
    ensures p.DoctorPage? ==> p.doctor == user.value && user.value.role == "doctor"
    ensures p.DoctorPage? ==> forall i :: 0 <= i < |p.appointments| ==>
      Appointments.Matches(p.appointments[i], "doctorId", user.value.id) && p.appointments[i] in store.Values
    ensures p.DoctorPage? ==> |p.appointments| == |Appointments.IndexIds(store, "doctorId", user.value.id, order)|
    ensures p.DoctorPage? ==> forall i :: 0 <= i < |p.appointments| ==>
      var ids := Appointments.IndexIds(store, "doctorId", user.value.id, order);
      ids[i] in store && p.appointments[i] == store[ids[i]]
    ensures p.DoctorPage? ==> forall id ::
      id in order && id in store && Appointments.Matches(store[id], "doctorId", user.value.id) ==> store[id] in p.appointments
    ensures p.DoctorPage? ==> p.stats == ComputeStats(p.appointments, DatePart(now)) && p.patients == Patients(p.appointments)
    ensures p.DoctorPage? ==> p.stats.weekCount == |p.appointments| == |p.patients|
    ensures p.DoctorPage? ==> |Seqs.Filter(p.patients, ShowsPrecautions())| == p.stats.prescriptionTotal
    ensures p.DoctorPage? && Appointments.Enumerates(order, store) ==>
      p.stats.weekCount == |Appointments.Owned(store, "doctorId", user.value.id)|
    ensures p.DoctorPage? && Appointments.NoneConfirmed(store) ==> p.stats.todayConfirmed == 0
  {
    match Access.Guard("doctor", user)
    case Redirect(location) => Redirected(location)
    case Next =>
      var xs := Appointments.GetAppointments(store, user.value.id, user.value.role, order);
      var today := DatePart(now);
      Appointments.IndexIdsCount(store, "doctorId", user.value.id, order);
      RowsWithPrecautions(xs, today);
      NoneConfirmedListed(store, xs, today);
      DoctorPage(user.value, xs, ComputeStats(xs, today), Patients(xs))
  }

  /** A list of stored records, from a table without confirmed records, has none confirmed on any day. */
  lemma {:induction false} NoneConfirmedListed(store: Appointments.Store, xs: seq<Item>, today: string)
    requires forall i :: 0 <= i < |xs| ==> xs[i] in store.Values
    ensures Appointments.NoneConfirmed(store) ==> Seqs.Where(xs, ConfirmedOn(today)) == {}
  {
    if Appointments.NoneConfirmed(store) {
      forall i | 0 <= i < |xs| ensures !ConfirmedOn(today)(xs[i]) {
        assert xs[i] in store.Values;
        var id :| id in store && store[id] == xs[i];
      }
    }
  }

  /**
   * No request of the application sets the status "Confirmed", so on a table
   * reached from one without confirmed appointments the "confirmed today"
   * count is always zero.
   */
  lemma {:induction false} NoneConfirmedToday(start: Appointments.Store, events: seq<Appointments.Event>, user: Option<SessionUser>, order: seq<string>, now: string)
    requires Appointments.NoneConfirmed(start)
    requires Access.Guard("doctor", user) == Access.Next
    ensures DoctorDashboard(Appointments.Run(start, events), user, order, now).stats.todayConfirmed == 0
  {
    Appointments.RunKeepsNoneConfirmed(start, events);
  }

  /**
   * A booking that succeeds shows up on the booked doctor's dashboard, as
   * long as the index lists its id.
   */
  lemma {:induction false} BookedAppearsOnDashboard(
    store: Appointments.Store, form: Appointments.BookingForm, doctor: Option<Appointments.Doctor>,
    patient: SessionUser, id: string, createdAt: string,
    user: SessionUser, order: seq<string>, now: string)
    requires doctor.Some?
    requires user.role == "doctor" && user.id == form.doctorId
    requires id in order
    ensures var after := Appointments.Book(store, form, doctor, patient, id, createdAt).value;
      after[id] in DoctorDashboard(after, Some(user), order, now).appointments
  {
    var after := Appointments.Book(store, form, doctor, patient, id, createdAt).value;
    DecodeIffRepresents(after[id], Appointment(
      id, form.doctorId, doctor.value.name, doctor.value.specialization, patient.id, patient.name,
      form.date, form.time, form.reason, Scheduled, None, createdAt, None));
    assert Appointments.Matches(after[id], "doctorId", user.id);
  }
}

=== FILE: decimal.dfy ===
/** Decimal rendering of array positions, as JavaScript prints a number inside a template string. */
module Decimal {

  predicate IsDigit(c: char) {
    '0' <= c <= '9'
  }

  predicate AllDigits(s: string) {
    forall i :: 0 <= i < |s| ==> IsDigit(s[i])
  }

  function DigitValue(c: char): nat
    requires IsDigit(c)
  {
    c as int - '0' as int
  }

  function DigitChar(d: nat): (c: char)
    requires d < 10
    ensures IsDigit(c) && DigitValue(c) == d
  {
    (d + '0' as int) as char
  }

  /** The decimal digits of `n`, most significant first, with no leading zero. */
  function Show(n: nat): (s: string)
    ensures |s| > 0 && AllDigits(s)
    ensures |s| > 1 ==> s[0] != '0'
  {
    if n < 10 then [DigitChar(n)] else Show(n / 10) + [DigitChar(n % 10)]
  }

  /** The number a string of decimal digits denotes. */
  function Parse(s: string): nat
    requires AllDigits(s)
  {
    if s == [] then 0 else Parse(s[..|s| - 1]) * 10 + DigitValue(s[|s| - 1])
  }

  /** Reading back what `Show` printed gives the original number. */
  lemma {:induction false} ParseShow(n: nat)
    ensures Parse(Show(n)) == n
  {
    if n >= 10 {
      ParseShow(n / 10);
      var s := Show(n);
      assert s[..|s| - 1] == Show(n / 10);
    }
  }

  /** Different numbers print differently. */
  lemma {:induction false} ShowInjective(m: nat, n: nat)
    requires Show(m) == Show(n)
    ensures m == n
  {
    ParseShow(m);
    ParseShow(n);
  }
}

=== FILE: iso_dates.dfy ===
/**
 * Calendar days written `YYYY-MM-DD`, the form the dashboard's `today` takes
 * (the date part of an ISO timestamp) and the form the booking form stores.
 * Comparing two such days as JavaScript `Date`s compares their midnights,
 * which orders them by year, then month, then day; `DayKey` is that order as a
 * number.
 */
module IsoDates {
  import opened Common
  import Decimal

  /** `YYYY-MM-DD` with a month from 01 to 12 and a day from 01 to 31. */
  predicate IsIsoDate(s: string) {
    |s| == 10 && s[4] == '-' && s[7] == '-' &&
    Decimal.AllDigits(s[..4]) && Decimal.AllDigits(s[5..7]) && Decimal.AllDigits(s[8..]) &&
    1 <= Decimal.Parse(s[5..7]) <= 12 && 1 <= Decimal.Parse(s[8..]) <= 31
  }

  function Year(s: string): nat
    requires IsIsoDate(s)
  {
    Decimal.Parse(s[..4])
  }

  function Month(s: string): (m: nat)
    requires IsIsoDate(s)
    ensures 1 <= m <= 12
  {
    Decimal.Parse(s[5..7])
  }

  function Day(s: string): (d: nat)
    requires IsIsoDate(s)
    ensures 1 <= d <= 31
  {
    Decimal.Parse(s[8..])
  }

  /** The position of a day in time: later days have larger keys. */
  function DayKey(s: string): (k: nat)
    requires IsIsoDate(s)
    ensures k == (Year(s) * 100 + Month(s)) * 100 + Day(s)
  {
    Year(s) * 10000 + Month(s) * 100 + Day(s)
  }

  /** Keys compare as the calendar does: by year, then month, then day. */
  lemma {:induction false} DayKeyOrder(a: string, b: string)
    requires IsIsoDate(a) && IsIsoDate(b)
    ensures DayKey(a) <= DayKey(b) <==>
      Year(a) < Year(b) ||
      (Year(a) == Year(b) && (Month(a) < Month(b) || (Month(a) == Month(b) && Day(a) <= Day(b))))
  {

  }

  /**
   * `today.substring(0, 7) + '-01'`: the first of today's month. `substring`
   * clamps its end to the length of the string.
   */
  function MonthStart(today: string): (m: string)
    ensures |m| == (if |today| >= 7 then 7 else |today|) + 3
    ensures |today| >= 7 ==> m[..7] == today[..7]
    ensures |today| < 7 ==> m[..|today|] == today
    ensures m[|m| - 3..] == "-01"
  {
    (if |today| >= 7 then today[..7] else today) + "-01"
  }

  /**
   * `new Date(date) >= new Date(start)` for the dates the application
   * compares: false when the date is missing or either side does not parse,
   * otherwise the comparison of the two days.
   */
  predicate OnOrAfter(date: Option<string>, start: string) {
    date.Some? && IsIsoDate(date.value) && IsIsoDate(start) && DayKey(start) <= DayKey(date.value)
  }

  /** The first of the month of a well-formed day is a well-formed day of the same month, on or before it. */
  lemma {:induction false} MonthStartOfDay(today: string)
    requires IsIsoDate(today)
    ensures IsIsoDate(MonthStart(today))
    ensures Year(MonthStart(today)) == Year(today) && Month(MonthStart(today)) == Month(today)
    ensures Day(MonthStart(today)) == 1
    ensures DayKey(MonthStart(today)) <= DayKey(today)
  {
    var m := MonthStart(today);
    assert m[..4] == today[..4];
    assert m[5..7] == today[5..7];
    assert m[8..] == "01";
    assert Decimal.Parse("01") == 1 by {
      assert "01"[..1] == "0";
    }
  }

  /**
   * Counting from the first of today's month selects exactly the well-formed
   * days in today's month or a later one.
   */
  lemma {:induction false} OnOrAfterMonthStart(date: string, today: string)
    requires IsIsoDate(today)
    ensures OnOrAfter(Some(date), MonthStart(today)) <==>
      IsIsoDate(date) && Year(date) * 100 + Month(date) >= Year(today) * 100 + Month(today)
  {
    MonthStartOfDay(today);
    if IsIsoDate(date) {
      var ym := Year(date) * 100 + Month(date);
      var ymToday := Year(today) * 100 + Month(today);
      assert DayKey(MonthStart(today)) == ymToday * 100 + 1;
      assert DayKey(date) == ym * 100 + Day(date);
      if ym < ymToday {
        assert ym * 100 + Day(date) <= (ymToday - 1) * 100 + 31;
      }
    }
  }
}

=== FILE: records.dfy ===
/**
 * The data the application stores. The document store holds each record as a
 * map from attribute name to string; an attribute that is absent reads as
 * JavaScript's `undefined`. `Appointment` is the typed reading of an
 * appointment record.
 */
module Records {
  import opened Common

  /** One stored record: attribute name to attribute value. */
  type Item = map<string, string>

  /** Reading `record.attr`: `None` when the attribute is absent. */
  function Lookup(item: Item, attr: string): Option<string> {
    if attr in item then Some(item[attr]) else None
  }

  /** Two records that read the same on every attribute are the same record. */
  lemma {:induction false} LookupExtensional(a: Item, b: Item)
    requires forall attr :: Lookup(a, attr) == Lookup(b, attr)
    ensures a == b
  {
    forall attr ensures attr in a <==> attr in b {
      assert Lookup(a, attr) == Lookup(b, attr);
    }
    assert a.Keys == b.Keys;
    forall attr | attr in a ensures a[attr] == b[attr] {
      assert Lookup(a, attr) == Lookup(b, attr);
    }
  }

  /** JavaScript truthiness of an attribute that holds a string: present and non-empty. */
  predicate Truthy(v: Option<string>) {
    v.Some? && v.value != ""
  }

  datatype Status = Scheduled | Confirmed | Rescheduled | Cancelled | Completed

  /** The string stored in the `status` attribute; `ParseStatus` reads it back. */
  function StatusName(s: Status): (name: string)
    ensures ParseStatus(name) == Some(s)
  {
    match s
    case Scheduled => "Scheduled"
    case Confirmed => "Confirmed"
    case Rescheduled => "Rescheduled"
    case Cancelled => "Cancelled"
    case Completed => "Completed"
  }

  function ParseStatus(name: string): Option<Status> {
    if name == "Scheduled" then Some(Scheduled)
    else if name == "Confirmed" then Some(Confirmed)
    else if name == "Rescheduled" then Some(Rescheduled)
    else if name == "Cancelled" then Some(Cancelled)
    else if name == "Completed" then Some(Completed)
    else None
  }

  /** Only the five status names parse, each to the status it names. */
  lemma {:induction false} ParseStatusSound(name: string)
    ensures ParseStatus(name).Some? ==> StatusName(ParseStatus(name).value) == name
  {
  }

  /** The logged-in user the session carries. */
  datatype SessionUser = SessionUser(id: string, name: string, email: string, role: string)

  /** An appointment record as the application writes it. */
  datatype Appointment = Appointment(
    id: string,
    doctorId: string,
    doctorName: string,
    specialty: string,
    patientId: string,
    patientName: string,
    date: string,
    time: string,
    reason: string,
    status: Status,
    precautions: Option<string>,
    createdAt: string,
    updatedAt: Option<string>)

  /** Attributes every well-formed appointment record carries. */
  const RequiredAttrs: set<string> :=
    {"id", "doctorId", "doctorName", "specialty", "patientId", "patientName",
     "date", "time", "reason", "status", "createdAt"}

  /** Adds `attr` to `item` when the optional value is present. */
  function WithOptional(item: Item, attr: string, v: Option<string>): Item {
    match v
    case Some(s) => item[attr := s]
    case None => item
  }

  function Encode(a: Appointment): Item {
    var base := map[
      "id" := a.id, "doctorId" := a.doctorId, "doctorName" := a.doctorName,
      "specialty" := a.specialty, "patientId" := a.patientId, "patientName" := a.patientName,
      "date" := a.date, "time" := a.time, "reason" := a.reason,
      "status" := StatusName(a.status), "createdAt" := a.createdAt];
    WithOptional(WithOptional(base, "precautions", a.precautions), "updatedAt", a.updatedAt)
  }

  /** The typed reading of a record; `None` when a required attribute is missing or the status is unknown. */
  function Decode(item: Item): Option<Appointment> {
    if RequiredAttrs <= item.Keys && ParseStatus(item["status"]).Some? then
      Some(Appointment(
        item["id"], item["doctorId"], item["doctorName"], item["specialty"],
        item["patientId"], item["patientName"], item["date"], item["time"], item["reason"],
        ParseStatus(item["status"]).value,
        Lookup(item, "precautions"), item["createdAt"], Lookup(item, "updatedAt")))
    else None
  }

  /**
   * `item` is a record of `a`: every attribute the typed view reads holds
   * the corresponding field, the two optional ones absent exactly when the
   * field is.
   */
  ghost predicate Represents(item: Item, a: Appointment) {
    Lookup(item, "id") == Some(a.id) &&
    Lookup(item, "doctorId") == Some(a.doctorId) &&
    Lookup(item, "doctorName") == Some(a.doctorName) &&
    Lookup(item, "specialty") == Some(a.specialty) &&
    Lookup(item, "patientId") == Some(a.patientId) &&
    Lookup(item, "patientName") == Some(a.patientName) &&
    Lookup(item, "date") == Some(a.date) &&
    Lookup(item, "time") == Some(a.time) &&
    Lookup(item, "reason") == Some(a.reason) &&
    Lookup(item, "status") == Some(StatusName(a.status)) &&
    Lookup(item, "createdAt") == Some(a.createdAt) &&
    Lookup(item, "precautions") == a.precautions &&
    Lookup(item, "updatedAt") == a.updatedAt
  }

  /** A record decodes to `a` exactly when it is a record of `a`. */
  lemma {:induction false} DecodeIffRepresents(item: Item, a: Appointment)
    ensures Decode(item) == Some(a) <==> Represents(item, a)
  {
    if Represents(item, a) {
      RepresentsDecodes(item, a);
    }
    if Decode(item) == Some(a) {
      assert StatusName(a.status) == item["status"];
    }
  }

  lemma {:induction false} RepresentsDecodes(item: Item, a: Appointment)
    requires Represents(item, a)
    ensures Decode(item) == Some(a)
  {
    assert RequiredAttrs <= item.Keys by {
      forall attr | attr in RequiredAttrs ensures attr in item {
        assert Lookup(item, attr).Some?;
      }
    }
    assert item["status"] == StatusName(a.status);
  }

  /** The encoding of an appointment is a record of it. */
  lemma {:induction false} EncodeRepresents(a: Appointment)
    ensures Represents(Encode(a), a)
  {
    EncodeParties(a);
    EncodeVisit(a);
  }

  /** Who the encoded appointment is between. */
  lemma {:induction false} EncodeParties(a: Appointment)
    ensures Lookup(Encode(a), "id") == Some(a.id) && Lookup(Encode(a), "doctorId") == Some(a.doctorId)
    ensures Lookup(Encode(a), "doctorName") == Some(a.doctorName) && Lookup(Encode(a), "specialty") == Some(a.specialty)
    ensures Lookup(Encode(a), "patientId") == Some(a.patientId) && Lookup(Encode(a), "patientName") == Some(a.patientName)
  {
  }

  /** When, why and in which state the encoded appointment is. */
  lemma {:induction false} EncodeVisit(a: Appointment)
    ensures Lookup(Encode(a), "date") == Some(a.date) && Lookup(Encode(a), "time") == Some(a.time)
    ensures Lookup(Encode(a), "reason") == Some(a.reason) && Lookup(Encode(a), "status") == Some(StatusName(a.status))
    ensures Lookup(Encode(a), "createdAt") == Some(a.createdAt)
    ensures Lookup(Encode(a), "precautions") == a.precautions && Lookup(Encode(a), "updatedAt") == a.updatedAt
  {
  }

  /** Writing an appointment and reading it back gives the same appointment. */
  lemma {:induction false} DecodeEncode(a: Appointment)
    ensures Decode(Encode(a)) == Some(a)
  {
    EncodeRepresents(a);
    RepresentsDecodes(Encode(a), a);
  }
}

=== FILE: seqs.dfy ===
/**
 * The JavaScript array and Set operations the application relies on,
 * with what they compute stated independently of how: `filter` keeps the
 * elements a predicate accepts, in order, and its length counts the positions
 * where the predicate holds; a `Set` built from an array keeps each distinct
 * value once, so its `size` is the number of distinct values.
 */
module Seqs {

  /** `xs.filter(p)`: the elements of `xs` that `p` accepts, in their order. */
  function Filter<T>(xs: seq<T>, p: T -> bool): (r: seq<T>)
    ensures |r| <= |xs|
    ensures forall i :: 0 <= i < |r| ==> p(r[i])
    ensures forall i :: 0 <= i < |xs| && p(xs[i]) ==> xs[i] in r
    ensures forall x :: x in r ==> x in xs
    decreases |xs|
  {
    if xs == [] then []
    else
      var n := |xs| - 1;
      var prev := Filter(xs[..n], p);
      assert forall i :: 0 <= i < n ==> xs[..n][i] == xs[i];
      if p(xs[n]) then prev + [xs[n]] else prev
  }

  /** Filtering one element keeps it exactly when the predicate accepts it. */
  lemma {:induction false} FilterSingle<T>(x: T, p: T -> bool)
    ensures Filter([x], p) == if p(x) then [x] else []
  {
    assert [x][..0] == [];
  }

  /**
   * Filtering a concatenation filters each part and concatenates the results:
   * together with `FilterSingle` this fixes the result, order included.
   */
  lemma {:induction false} FilterConcat<T>(a: seq<T>, b: seq<T>, p: T -> bool)
    ensures Filter(a + b, p) == Filter(a, p) + Filter(b, p)
    decreases |b|
  {
    if b == [] {
      assert a + b == a;
    } else {
      var n := |b| - 1;
      FilterConcat(a, b[..n], p);
      assert (a + b)[..|a + b| - 1] == a + b[..n];
      assert (a + b)[|a + b| - 1] == b[n];
    }
  }

  /** `xs.filter(p).length`: the number of positions at which `p` holds. */
  function Count<T>(xs: seq<T>, p: T -> bool): (n: nat)
    ensures n == |Where(xs, p)| && n <= |xs|
  {
    FilterCountsWhere(xs, p);
    |Filter(xs, p)|
  }

  /** `xs.map(f)`. */
  function Map<A, B>(xs: seq<A>, f: A -> B): (r: seq<B>)
    ensures |r| == |xs| && forall i :: 0 <= i < |xs| ==> r[i] == f(xs[i])
  {
    seq(|xs|, i requires 0 <= i < |xs| => f(xs[i]))
  }

  /** The positions of `xs` where `p` holds. */
  function Where<T>(xs: seq<T>, p: T -> bool): set<nat> {
    set i: nat | i < |xs| && p(xs[i])
  }

  /** The length of `xs.filter(p)` is the number of positions at which `p` holds. */
  lemma {:induction false} FilterCountsWhere<T>(xs: seq<T>, p: T -> bool)
    ensures |Filter(xs, p)| == |Where(xs, p)|
    decreases |xs|
  {
    if xs != [] {
      var n := |xs| - 1;
      FilterCountsWhere(xs[..n], p);
      var w := Where(xs[..n], p);
      assert n !in w;
      if p(xs[n]) {
        assert Where(xs, p) == w + {n};
      } else {
        assert Where(xs, p) == w;
      }
    }
  }

  /** A predicate that accepts more never yields a shorter filter. */
  lemma {:induction false} FilterMonotone<T>(xs: seq<T>, p: T -> bool, q: T -> bool)
    requires forall x :: p(x) ==> q(x)
    ensures |Filter(xs, p)| <= |Filter(xs, q)|
    decreases |xs|
  {
    if xs != [] {
      FilterMonotone(xs[..|xs| - 1], p, q);
    }
  }

  /** Filtering a mapped array counts the same elements as filtering the original by the composed test. */
  lemma {:induction false} FilterMapCount<A, B>(xs: seq<A>, f: A -> B, p: A -> bool, q: B -> bool)
    requires forall x :: q(f(x)) == p(x)
    ensures |Filter(Map(xs, f), q)| == |Filter(xs, p)|
    decreases |xs|
  {
    if xs != [] {
      var n := |xs| - 1;
      FilterMapCount(xs[..n], f, p, q);
      assert Map(xs, f)[..n] == Map(xs[..n], f);
    }
  }

  ghost predicate Distinct<T>(xs: seq<T>) {
    forall i, j :: 0 <= i < j < |xs| ==> xs[i] != xs[j]
  }

  /** The values occurring in `xs`. */
  function Elements<T>(xs: seq<T>): set<T> {
    set x | x in xs
  }

  /**
   * `new Set(xs)` as an insertion-ordered list: each value once, in the order
   * of its first occurrence.
   */
  function SetOf<T(==,!new)>(xs: seq<T>): (r: seq<T>)
    ensures Distinct(r)
    ensures forall x :: x in r <==> x in xs
    decreases |xs|
  {
    if xs == [] then []
    else
      var n := |xs| - 1;
      var prev := SetOf(xs[..n]);
      assert forall x :: x in xs <==> x in xs[..n] || x == xs[n];
      if xs[n] in prev then prev else prev + [xs[n]]
  }

  /** A list without repetitions has as many elements as distinct values. */
  lemma {:induction false} DistinctCard<T>(xs: seq<T>)
    requires Distinct(xs)
    ensures |Elements(xs)| == |xs|
    decreases |xs|
  {
    if xs != [] {
      var n := |xs| - 1;
      DistinctCard(xs[..n]);
      assert xs[n] !in Elements(xs[..n]);
      assert Elements(xs) == Elements(xs[..n]) + {xs[n]};
    }
  }

  /** The insertion-ordered Set holds each distinct value once, and is no longer than the list. */
  lemma {:induction false} SetOfLength<T(!new)>(xs: seq<T>)
    ensures |Elements(xs)| == |SetOf(xs)| <= |xs|
    decreases |xs|
  {
    DistinctCard(SetOf(xs));
    assert Elements(SetOf(xs)) == Elements(xs);
    if xs != [] {
      SetOfLength(xs[..|xs| - 1]);
    }
  }

  /** `new Set(xs).size`: the number of distinct values, at most the length and at least one when there is any. */
  function SizeOfSet<T(==,!new)>(xs: seq<T>): (n: nat)
    ensures n == |Elements(xs)| && n <= |xs|
    ensures |xs| > 0 ==> n >= 1
  {
    SetOfLength(xs);
    if xs != [] then
      assert xs[0] in SetOf(xs);
      |SetOf(xs)|
    else |SetOf(xs)|
  }

  /** The values of `xs` that `p` accepts. */
  function Accepted<T>(xs: seq<T>, p: T -> bool): set<T> {
    set x | x in xs && p(x)
  }

  /**
   * Filtering a list without repetitions counts the distinct values the
   * predicate accepts.
   */
  lemma {:induction false} FilterDistinctCount<T>(xs: seq<T>, p: T -> bool)
    requires Distinct(xs)
    ensures |Filter(xs, p)| == |Accepted(xs, p)|
    decreases |xs|
  {
    if xs != [] {
      var n := |xs| - 1;
      var init, last := xs[..n], xs[n];
      assert Distinct(init) by {
        forall i, j | 0 <= i < j < n ensures init[i] != init[j] {
          assert init[i] == xs[i] && init[j] == xs[j];
        }
      }
      FilterDistinctCount(init, p);
      assert last !in init;
      assert forall x :: x in xs <==> x in init || x == last by {
        assert xs == init + [last];
      }
      if p(last) {
        assert Filter(xs, p) == Filter(init, p) + [last];
        assert Accepted(xs, p) == Accepted(init, p) + {last};
      } else {
        assert Filter(xs, p) == Filter(init, p);
        assert Accepted(xs, p) == Accepted(init, p);
      }
    }
  }
}

=== FILE: update_expr.dfy ===
/**
 * The partial-update request the application sends for an appointment
 * (`updateAppointment`): each (key, value) pair of the update object becomes
 * one `#<key><i> = :<key><i>` clause of a SET expression, with the name
 * placeholder mapped to the key and the value placeholder mapped to the value.
 * `ApplySet` gives the request its meaning: how the document store rewrites a
 * record when it executes such a SET expression.
 */
module UpdateExpr {
  import opened Common
  import opened Records
  import Decimal

  /** One own property of the update object, in `Object.entries` order. */
  datatype Entry = Entry(key: string, value: string)

  /** One `#name = :value` clause of the SET expression. */
  datatype Assign = Assign(name: string, value: string)

  /** The update expression with its attribute-name and attribute-value maps. */
  datatype Expr = Expr(clauses: seq<Assign>, names: map<string, string>, values: map<string, string>)

  function NamePlaceholder(key: string, index: nat): string {
    "#" + key + Decimal.Show(index)
  }

  function ValuePlaceholder(key: string, index: nat): string {
    ":" + key + Decimal.Show(index)
  }

  /** The clause the builder emits for the entry at position `index`. */
  function ClauseAt(key: string, index: nat): Assign {
    Assign(NamePlaceholder(key, index), ValuePlaceholder(key, index))
  }

  /** One clause per entry, in entry order. */
  function Clauses(entries: seq<Entry>): seq<Assign> {
    seq(|entries|, i requires 0 <= i < |entries| => ClauseAt(entries[i].key, i))
  }

  /** A key whose placeholders cannot run into the position digits: it does not end in a digit. */
  predicate SafeKey(key: string) {
    |key| == 0 || !Decimal.IsDigit(key[|key| - 1])
  }

  predicate KeysDistinct(entries: seq<Entry>) {
    forall i, j :: 0 <= i < j < |entries| ==> entries[i].key != entries[j].key
  }

  /** A character the store accepts in a placeholder after its `#` or `:`: a letter, a digit or `_`. */
  predicate WordChar(c: char) {
    'a' <= c <= 'z' || 'A' <= c <= 'Z' || Decimal.IsDigit(c) || c == '_'
  }

  /** The key attribute of the appointments table, which an update may not write. */
  const KeyAttribute: string := "id"

  /** A non-empty key made of word characters, which gives well-formed placeholders. */
  predicate WordKey(key: string) {
    |key| > 0 && forall k :: 0 <= k < |key| ==> WordChar(key[k])
  }

  predicate AllWords(entries: seq<Entry>) {
    forall i :: 0 <= i < |entries| ==> WordKey(entries[i].key)
  }

  /** No entry writes the table's key attribute. */
  predicate KeyUntouched(entries: seq<Entry>) {
    forall i :: 0 <= i < |entries| ==> entries[i].key != KeyAttribute
  }

  /** What every update object the application builds satisfies. */
  predicate WellFormed(entries: seq<Entry>) {
    KeysDistinct(entries) && AllSafe(entries) && AllWords(entries) && KeyUntouched(entries)
  }

  predicate HasKey(entries: seq<Entry>, attr: string) {
    exists i :: 0 <= i < |entries| && entries[i].key == attr
  }

  predicate AllSafe(entries: seq<Entry>) {
    forall i :: 0 <= i < |entries| ==> SafeKey(entries[i].key)
  }

  /** Every entry's placeholders are defined in the two maps. */
  predicate Defines(entries: seq<Entry>, e: Expr) {
    forall i :: 0 <= i < |entries| ==>
      NamePlaceholder(entries[i].key, i) in e.names && ValuePlaceholder(entries[i].key, i) in e.values
  }

  /** Every entry's name placeholder stands for its key and its value placeholder for its value. */
  predicate Binds(entries: seq<Entry>, e: Expr)
    requires Defines(entries, e)
  {
    forall i :: 0 <= i < |entries| ==>
      e.names[NamePlaceholder(entries[i].key, i)] == entries[i].key &&
      e.values[ValuePlaceholder(entries[i].key, i)] == entries[i].value
  }

  /** Some clause uses `n` as its name placeholder. */
  predicate UsesName(cs: seq<Assign>, n: string) {
    exists i :: 0 <= i < |cs| && cs[i].name == n
  }

  /** Some clause uses `v` as its value placeholder. */
  predicate UsesValue(cs: seq<Assign>, v: string) {
    exists i :: 0 <= i < |cs| && cs[i].value == v
  }

  /** Every placeholder the two maps define is used by some clause. */
  predicate DefinesOnlyUsed(e: Expr) {
    (forall n :: n in e.names ==> UsesName(e.clauses, n)) &&
    (forall v :: v in e.values ==> UsesValue(e.clauses, v))
  }

  /**
   * The builder: a left-to-right pass over the entries that appends a clause
   * and records both placeholders, a later write to the same placeholder
   * replacing an earlier one as a JavaScript property assignment does.
   */
  function Build(entries: seq<Entry>): (e: Expr)
    ensures e.clauses == Clauses(entries)
    ensures Defines(entries, e) && DefinesOnlyUsed(e)
    ensures AllSafe(entries) ==> Binds(entries, e)
    decreases |entries|
  {
    if entries == [] then Expr([], map[], map[])
    else
      var n := |entries| - 1;
      var prev := Build(entries[..n]);
      var e := Expr(
        prev.clauses + [ClauseAt(entries[n].key, n)],
        prev.names[NamePlaceholder(entries[n].key, n) := entries[n].key],
        prev.values[ValuePlaceholder(entries[n].key, n) := entries[n].value]);
      BuildStep(entries, prev, e);
      AppendKeepsUsed(prev, ClauseAt(entries[n].key, n), entries[n].key, entries[n].value);
      e
  }

  /** One step of the builder keeps its three promises. */
  lemma {:induction false} BuildStep(entries: seq<Entry>, prev: Expr, e: Expr)
    requires |entries| > 0
    requires prev.clauses == Clauses(entries[..|entries| - 1])
    requires Defines(entries[..|entries| - 1], prev)
    requires AllSafe(entries[..|entries| - 1]) ==> Binds(entries[..|entries| - 1], prev)
    requires var n := |entries| - 1;
      e == Expr(
        prev.clauses + [ClauseAt(entries[n].key, n)],
        prev.names[NamePlaceholder(entries[n].key, n) := entries[n].key],
        prev.values[ValuePlaceholder(entries[n].key, n) := entries[n].value])
    ensures e.clauses == Clauses(entries)
    ensures Defines(entries, e)
    ensures AllSafe(entries) ==> Binds(entries, e)
  {
    var n := |entries| - 1;
    var init := entries[..n];
    assert forall i :: 0 <= i < n ==> init[i] == entries[i];
    assert Clauses(init) + [ClauseAt(entries[n].key, n)] == Clauses(entries);
    if AllSafe(entries) {
      assert AllSafe(init);
      LastPlaceholdersFresh(entries);
    }
  }

  /** Appending a clause together with its two placeholders keeps every defined placeholder used. */
  lemma {:induction false} AppendKeepsUsed(prev: Expr, c: Assign, key: string, value: string)
    requires DefinesOnlyUsed(prev)
    ensures DefinesOnlyUsed(Expr(prev.clauses + [c], prev.names[c.name := key], prev.values[c.value := value]))
  {
    var cs := prev.clauses + [c];
    assert cs[|prev.clauses|] == c;
    assert forall i :: 0 <= i < |prev.clauses| ==> cs[i] == prev.clauses[i];
  }

  /** With safe keys, the last entry's placeholders differ from every earlier one. */
  lemma {:induction false} LastPlaceholdersFresh(entries: seq<Entry>)
    requires |entries| > 0
    ensures AllSafe(entries) ==>
      forall i :: 0 <= i < |entries| - 1 ==>
        NamePlaceholder(entries[i].key, i) != NamePlaceholder(entries[|entries| - 1].key, |entries| - 1) &&
        ValuePlaceholder(entries[i].key, i) != ValuePlaceholder(entries[|entries| - 1].key, |entries| - 1)
  {
    if AllSafe(entries) {
      var n := |entries| - 1;
      forall i | 0 <= i < n
        ensures NamePlaceholder(entries[i].key, i) != NamePlaceholder(entries[n].key, n)
        ensures ValuePlaceholder(entries[i].key, i) != ValuePlaceholder(entries[n].key, n)
      {
        PlaceholdersDistinct(entries[i].key, i, entries[n].key, n);
      }
    }
  }

  /**
   * A prefix that does not end in a digit, followed by digits, splits in only
   * one way: the digit run is the longest digit suffix.
   */
  lemma {:induction false} DigitSuffixUnique(p1: string, d1: string, p2: string, d2: string)
    requires |p1| > 0 && !Decimal.IsDigit(p1[|p1| - 1])
    requires |p2| > 0 && !Decimal.IsDigit(p2[|p2| - 1])
    requires Decimal.AllDigits(d1) && Decimal.AllDigits(d2)
    requires p1 + d1 == p2 + d2
    ensures p1 == p2 && d1 == d2
  {
    var s := p1 + d1;
    assert s[|p1| - 1] == p1[|p1| - 1] && s[|p2| - 1] == p2[|p2| - 1];
    assert p1 == s[..|p1|] == p2;
    assert d1 == s[|p1|..] == d2;
  }

  /** Placeholders of entries at different positions differ, as long as the keys are safe. */
  lemma {:induction false} PlaceholdersDistinct(k1: string, i: nat, k2: string, j: nat)
    requires SafeKey(k1) && SafeKey(k2) && i != j
    ensures NamePlaceholder(k1, i) != NamePlaceholder(k2, j)
    ensures ValuePlaceholder(k1, i) != ValuePlaceholder(k2, j)
  {
    if NamePlaceholder(k1, i) == NamePlaceholder(k2, j) {
      assert NamePlaceholder(k1, i) == ("#" + k1) + Decimal.Show(i);
      assert NamePlaceholder(k2, j) == ("#" + k2) + Decimal.Show(j);
      DigitSuffixUnique("#" + k1, Decimal.Show(i), "#" + k2, Decimal.Show(j));
      Decimal.ShowInjective(i, j);
    }
    if ValuePlaceholder(k1, i) == ValuePlaceholder(k2, j) {
      assert ValuePlaceholder(k1, i) == (":" + k1) + Decimal.Show(i);
      assert ValuePlaceholder(k2, j) == (":" + k2) + Decimal.Show(j);
      DigitSuffixUnique(":" + k1, Decimal.Show(i), ":" + k2, Decimal.Show(j));
      Decimal.ShowInjective(i, j);
    }
  }

  // ----- Executing the SET expression -----

  datatype UpdateError =
    | EmptyUpdate          // `SET ` with no clause is not a valid expression
    | InvalidPlaceholder   // a placeholder is not `#` or `:` followed by letters, digits and `_`
    | UndefinedPlaceholder // a clause uses a placeholder neither map defines
    | OverlappingPaths     // two clauses write the same attribute
    | UnusedPlaceholder    // a map defines a placeholder no clause uses
    | EmptyAttributeName   // a name placeholder stands for the empty name
    | KeyAttributeWritten  // a clause writes the table's key attribute

  /** A placeholder token: the sigil followed by one or more word characters. */
  predicate Token(s: string, sigil: char) {
    |s| > 1 && s[0] == sigil && forall k :: 1 <= k < |s| ==> WordChar(s[k])
  }

  predicate TokensValid(cs: seq<Assign>) {
    forall c :: c in cs ==> Token(c.name, '#') && Token(c.value, ':')
  }

  predicate ResolvesAll(cs: seq<Assign>, names: map<string, string>, values: map<string, string>) {
    forall c :: c in cs ==> c.name in names && c.value in values
  }

  predicate Resolves(e: Expr) {
    ResolvesAll(e.clauses, e.names, e.values)
  }

  /** Some clause writes `attr`. */
  predicate Writes(cs: seq<Assign>, names: map<string, string>, attr: string)
    requires forall c :: c in cs ==> c.name in names
  {
    exists c :: c in cs && names[c.name] == attr
  }

  /** No two clauses write the same attribute. */
  predicate TargetsDistinct(cs: seq<Assign>, names: map<string, string>)
    requires forall c :: c in cs ==> c.name in names
  {
    forall i, j :: 0 <= i < j < |cs| ==> names[cs[i].name] != names[cs[j].name]
  }

  /** Performs the clauses in order on `item`. */
  function Assignments(item: Item, cs: seq<Assign>, names: map<string, string>, values: map<string, string>): (r: Item)
    requires ResolvesAll(cs, names, values)
    ensures forall attr :: !Writes(cs, names, attr) ==> Lookup(r, attr) == Lookup(item, attr)
    ensures TargetsDistinct(cs, names) ==>
      forall i :: 0 <= i < |cs| ==> Lookup(r, names[cs[i].name]) == Some(values[cs[i].value])
    decreases |cs|
  {
    if cs == [] then item
    else
      var n := |cs| - 1;
      var prev := Assignments(item, cs[..n], names, values);
      var r := prev[names[cs[n].name] := values[cs[n].value]];
      AssignmentsStep(item, cs, names, values, prev, r);
      r
  }

  lemma {:induction false} AssignmentsStep(item: Item, cs: seq<Assign>, names: map<string, string>, values: map<string, string>, prev: Item, r: Item)
    requires |cs| > 0 && ResolvesAll(cs, names, values)
    requires var n := |cs| - 1; ResolvesAll(cs[..n], names, values)
    requires var n := |cs| - 1;
      forall attr :: !Writes(cs[..n], names, attr) ==> Lookup(prev, attr) == Lookup(item, attr)
    requires var n := |cs| - 1; TargetsDistinct(cs[..n], names) ==>
      forall i :: 0 <= i < n ==> Lookup(prev, names[cs[..n][i].name]) == Some(values[cs[..n][i].value])
    requires r == prev[names[cs[|cs| - 1].name] := values[cs[|cs| - 1].value]]
    ensures forall attr :: !Writes(cs, names, attr) ==> Lookup(r, attr) == Lookup(item, attr)
    ensures TargetsDistinct(cs, names) ==>
      forall i :: 0 <= i < |cs| ==> Lookup(r, names[cs[i].name]) == Some(values[cs[i].value])
  {
    var n := |cs| - 1;
    forall attr | !Writes(cs, names, attr)
      ensures Lookup(r, attr) == Lookup(item, attr)
    {
      assert cs[n] in cs;
      assert forall c :: c in cs[..n] ==> c in cs;
    }
    if TargetsDistinct(cs, names) {
      assert TargetsDistinct(cs[..n], names);
    }
  }

  /**
   * The document store's reading of a SET update on a record: refuse an empty
   * expression, a malformed or undefined placeholder, two clauses on one
   * attribute, an unused placeholder, an empty attribute name and a write of
   * the key attribute; otherwise write every clause's value to its attribute
   * and leave the rest alone.
   */
  function ApplySet(item: Item, e: Expr): (r: Result<Item, UpdateError>)
    ensures r.Ok? <==> (
      |e.clauses| > 0 && TokensValid(e.clauses) && Resolves(e) &&
      TargetsDistinct(e.clauses, e.names) && DefinesOnlyUsed(e) && !Writes(e.clauses, e.names, "") &&
      !Writes(e.clauses, e.names, KeyAttribute))
    ensures r.Ok? ==> forall i :: 0 <= i < |e.clauses| ==>
      Lookup(r.value, e.names[e.clauses[i].name]) == Some(e.values[e.clauses[i].value])
    ensures r.Ok? ==> forall attr :: !Writes(e.clauses, e.names, attr) ==> Lookup(r.value, attr) == Lookup(item, attr)
  {
    if |e.clauses| == 0 then Err(EmptyUpdate)
    else if !TokensValid(e.clauses) then Err(InvalidPlaceholder)
    else if !Resolves(e) then Err(UndefinedPlaceholder)
    else if !TargetsDistinct(e.clauses, e.names) then Err(OverlappingPaths)
    else if !DefinesOnlyUsed(e) then Err(UnusedPlaceholder)
    else if Writes(e.clauses, e.names, "") then Err(EmptyAttributeName)
    else if Writes(e.clauses, e.names, KeyAttribute) then Err(KeyAttributeWritten)
    else Ok(Assignments(item, e.clauses, e.names, e.values))
  }

  /** Word keys give placeholders the store accepts. */
  lemma {:induction false} PlaceholderTokens(key: string, i: nat)
    requires WordKey(key)
    ensures Token(NamePlaceholder(key, i), '#') && Token(ValuePlaceholder(key, i), ':')
  {
    var d := Decimal.Show(i);
    assert NamePlaceholder(key, i) == "#" + key + d;
    assert ValuePlaceholder(key, i) == ":" + key + d;
  }

  /** The clauses of an update object with word keys are well-formed tokens. */
  lemma {:induction false} ClauseTokens(entries: seq<Entry>)
    requires AllWords(entries)
    ensures TokensValid(Clauses(entries))
  {
    var cs := Clauses(entries);
    forall c | c in cs ensures Token(c.name, '#') && Token(c.value, ':') {
      var i :| 0 <= i < |cs| && cs[i] == c;
      PlaceholderTokens(entries[i].key, i);
    }
  }

  /**
   * The clauses of a well-formed update object are accepted tokens and write
   * exactly its keys, each once, none of them empty or the key attribute.
   */
  lemma {:induction false} BuildTargets(entries: seq<Entry>, e: Expr)
    requires WellFormed(entries)
    requires e.clauses == Clauses(entries) && Defines(entries, e) && Binds(entries, e)
    ensures TokensValid(e.clauses)
    ensures Resolves(e)
    ensures TargetsDistinct(e.clauses, e.names)
    ensures forall i :: 0 <= i < |entries| ==> e.names[e.clauses[i].name] == entries[i].key
    ensures forall attr :: Writes(e.clauses, e.names, attr) <==> HasKey(entries, attr)
    ensures !Writes(e.clauses, e.names, "") && !Writes(e.clauses, e.names, KeyAttribute)
  {
    ClauseTokens(entries);
    forall c | c in e.clauses ensures c.name in e.names && c.value in e.values {
      var i :| 0 <= i < |e.clauses| && e.clauses[i] == c;
    }
    forall attr ensures Writes(e.clauses, e.names, attr) <==> HasKey(entries, attr) {
      if Writes(e.clauses, e.names, attr) {
        var c :| c in e.clauses && e.names[c.name] == attr;
        var i :| 0 <= i < |e.clauses| && e.clauses[i] == c;
        assert entries[i].key == attr;
      }
      if HasKey(entries, attr) {
        var i :| 0 <= i < |entries| && entries[i].key == attr;
        assert e.clauses[i] in e.clauses;
      }
    }
  }

  /**
   * The builder's request, executed on a record, overwrites exactly the listed
   * keys with their values and keeps every other attribute; an empty update
   * object yields an expression the store refuses.
   */
  lemma {:induction false} BuildApply(item: Item, entries: seq<Entry>)
    requires WellFormed(entries)
    ensures |entries| == 0 ==> ApplySet(item, Build(entries)) == Err(EmptyUpdate)
    ensures |entries| > 0 ==> ApplySet(item, Build(entries)).Ok?
    ensures |entries| > 0 ==>
      forall i :: 0 <= i < |entries| ==> Lookup(ApplySet(item, Build(entries)).value, entries[i].key) == Some(entries[i].value)
    ensures |entries| > 0 ==>
      forall attr :: !HasKey(entries, attr) ==> Lookup(ApplySet(item, Build(entries)).value, attr) == Lookup(item, attr)
  {
    var e := Build(entries);
    if |entries| > 0 {
      BuildTargets(entries, e);
      var r := ApplySet(item, e);
      assert r.Ok?;
      forall i | 0 <= i < |entries| ensures Lookup(r.value, entries[i].key) == Some(entries[i].value) {
        assert e.names[e.clauses[i].name] == entries[i].key;
      }
    }
  }

  /**
   * `updateAppointment` on one record: build the request from the update
   * object and execute it. For a well-formed update object it succeeds exactly
   * when there is an entry, writes every entry, and keeps every other attribute.
   */
  function Execute(item: Item, entries: seq<Entry>): (r: Result<Item, UpdateError>)
    ensures |entries| == 0 ==> r == Err(EmptyUpdate)
    ensures WellFormed(entries) ==> (r.Ok? <==> |entries| > 0)
    ensures WellFormed(entries) && r.Ok? ==>
      forall i :: 0 <= i < |entries| ==> Lookup(r.value, entries[i].key) == Some(entries[i].value)
    ensures WellFormed(entries) && r.Ok? ==>
      forall attr :: !HasKey(entries, attr) ==> Lookup(r.value, attr) == Lookup(item, attr)
  {
    var r := ApplySet(item, Build(entries));
    if WellFormed(entries) then BuildApply(item, entries); r else r
  }

  /** An update object that writes the key attribute is refused. */
  lemma {:induction false} KeyAttributeRefused(item: Item, v: string)
    ensures Execute(item, [Entry(KeyAttribute, v)]) == Err(KeyAttributeWritten)
  {
    var es := [Entry(KeyAttribute, v)];
    var e := Build(es);
    assert e.clauses == [ClauseAt(KeyAttribute, 0)];
    PlaceholderTokens(KeyAttribute, 0);
    assert e.names[e.clauses[0].name] == KeyAttribute;
    assert e.clauses[0] in e.clauses;
  }

  /** An update object whose key is not a word gives a placeholder the store refuses. */
  lemma {:induction false} NonWordKeyRefused(item: Item, v: string)
    ensures Execute(item, [Entry("a-b", v)]) == Err(InvalidPlaceholder)
  {
    var e := Build([Entry("a-b", v)]);
    assert e.clauses == [ClauseAt("a-b", 0)];
    assert e.clauses[0].name[2] == '-';
    assert e.clauses[0] in e.clauses;
  }

  /** Key "k1" at position 0 and key "k" at position 10 share the name placeholder "#k10". */
  lemma {:induction false} CollidingPlaceholders()
    ensures NamePlaceholder("k1", 0) == "#k10" == NamePlaceholder("k", 10)
  {
    assert Decimal.Show(0) == "0";
    assert Decimal.Show(10) == Decimal.Show(1) + "0" == "10";
  }

  /** Every placeholder the builder's clauses use is defined. */
  lemma {:induction false} BuildResolves(entries: seq<Entry>)
    ensures Resolves(Build(entries))
  {
    var e := Build(entries);
    forall c | c in e.clauses ensures c.name in e.names && c.value in e.values {
      var i :| 0 <= i < |e.clauses| && e.clauses[i] == c;
    }
  }

  /** A name placeholder that is defined but used by no clause makes the store refuse the update. */
  lemma {:induction false} UnusedPlaceholderRefused(item: Item)
    ensures ApplySet(item, Expr([Assign("#a", ":a")], map["#a" := "a", "#zz" := "b"], map[":a" := "v"])) ==
      Err(UnusedPlaceholder)
  {
    var e := Expr([Assign("#a", ":a")], map["#a" := "a", "#zz" := "b"], map[":a" := "v"]);
    assert "#zz" in e.names && "#zz" != "#a";
    assert !UsesName(e.clauses, "#zz");
  }

  /** Two clauses that share a name placeholder make the store refuse the update. */
  lemma {:induction false} SharedPlaceholderRefused(item: Item, e: Expr, i: nat, j: nat)
    requires TokensValid(e.clauses) && Resolves(e)
    requires i < j < |e.clauses| && e.clauses[i].name == e.clauses[j].name
    ensures ApplySet(item, e) == Err(OverlappingPaths)
  {
  }

  /** An update object with distinct word keys in which "k1" (position 0) and "k" (position 10) both appear. */
  function CollidingEntries(): (es: seq<Entry>)
    ensures KeysDistinct(es) && AllWords(es) && |es| == 11 && es[0].key == "k1" && es[10].key == "k"
  {
    var fillers := seq(9, i requires 0 <= i < 9 => Entry([('a' as int + i) as char], ""));
    var es := [Entry("k1", "first")] + fillers + [Entry("k", "last")];
    assert forall i :: 1 <= i < 10 ==> es[i] == fillers[i - 1];
    assert forall i :: 0 <= i < 11 ==> |es[i].key| == (if i == 0 then 2 else 1);
    assert forall i :: 0 <= i < 11 ==> es[i].key[0] == if i == 0 || i == 10 then 'k' else ('a' as int + i - 1) as char;
    es
  }

  /**
   * Position suffixes alone do not keep placeholders apart once a key ends in
   * a digit: key "k1" at position 0 and key "k" at position 10 both get the
   * placeholder "#k10", so the store refuses the whole update, although the
   * keys differ (as `CollidingEntries` shows is possible).
   */
  lemma {:induction false} PlaceholderCollision(item: Item, entries: seq<Entry>)
    requires AllWords(entries) && |entries| > 10 && entries[0].key == "k1" && entries[10].key == "k"
    ensures ApplySet(item, Build(entries)) == Err(OverlappingPaths)
  {
    var e := Build(entries);
    ClauseTokens(entries);
    BuildResolves(entries);
    CollidingPlaceholders();
    assert e.clauses[0].name == e.clauses[10].name;
    SharedPlaceholderRefused(item, e, 0, 10);
  }

  // ----- The request text -----

  function Join(parts: seq<string>, sep: string): string {
    if |parts| == 0 then ""
    else if |parts| == 1 then parts[0]
    else parts[0] + sep + Join(parts[1..], sep)
  }

  function ClauseText(c: Assign): string {
    c.name + " = " + c.value
  }

  /** The `UpdateExpression` string sent with the request. */
  function Text(e: Expr): string {
    "SET " + Join(seq(|e.clauses|, i requires 0 <= i < |e.clauses| => ClauseText(e.clauses[i])), ", ")
  }
}
